=== FILE: README.md ===
# IuristaTech legal-chat backend — a Dafny model

This project models the decision logic of a Flask backend for a Colombian
legal-assistant chat. It covers four pieces:

- the chat engine (`services/chat_engine.py`):
  - provider selection at import time;
  - the API-key guard;
  - the knowledge-base system prompt;
  - the message payload sent to the completion provider;
  - the keyword status classifier;
  - the failure fallback;
- the public handlers of `app.py`:
  - login;
  - chat, which validates the message, finds or creates the conversation and appends the user and assistant messages;
  - listing a user's conversations;
  - listing a conversation's messages;
- the admin handlers of `admin_routes.py`:
  - the admin check;
  - the recent-conversation dashboard;
  - PDF knowledge upload;
  - knowledge listing with previews;
  - knowledge deletion;
- the schema runner `run_schema.py`. It splits the schema on `;` and executes the non-blank pieces in order, stopping at the first failure.

## How the system is represented

The four database tables of `models.py` are immutable records. The database is
one `Models.Store` value holding:

- the rows, as sequences;
- the auto-increment counters.

Handlers are pure functions that take a store and return a reply. Handlers that write also return the new store. `Models.Valid` collects the integrity constraints the schema imposes:

- unique primary keys below their counters;
- unique user e-mails;
- every message belongs to a stored conversation;
- every stored document fits its columns: a `title` of at most 255 characters and a `content` of at most 65,535 bytes of UTF-8 (`Models.KnowledgeFits`, models.py:39-40);
- every conversation with an owner names a stored user (the foreign key `conversations.user_id` of models.py:20).

The lemmas show that every writing handler preserves `Valid`.

Query clauses are sequence operations in `Sequences`:

- `filter_by` is `Filter`;
- `order_by(col.asc()/desc())` is an insertion sort on an integer key, proved to be a permutation;
- `limit(n)` is `TakeFirst`.

Timestamps are integers.

Whatever the code does not compute itself is an input:

- the completion provider is a function from a `CompletionRequest` to an `Outcome`;
- the knowledge-base query and the message-table query are `Outcome`s. A successful knowledge-base query returns the stored items in some order (`App.SeesKnowledge`);
- the PDF reader's pages are an `Outcome`;
- `cursor.execute` is a predicate `accepts(done, command)`: whether `command` succeeds on the database after the commands `done` ran. The same text can therefore succeed once and fail later.

An `Err` carries the text of the exception the call would raise. Module-level globals of the chat engine (the selected provider and the base prompt) form a `ChatEngine.Engine` value built by `ChatEngine.LoadModule`. Building it fails when the OpenAI client constructor refuses a missing key, and `App.Chat` takes that outcome because `chat()` imports the engine first.

Python semantics are written out:

- truthiness of `None`, `""` and `0` (`Base.TruthyText`, `Base.TruthyId`);
- `in` on strings (`Strings.Contains`);
- slicing with an ellipsis (`Strings.Ellipsize`);
- `str.split` with a one-character separator (`Strings.Split`);
- `str.strip()` emptiness, using Python's whitespace set (`Strings.IsBlank`).

## Model

| member | source | states |
|---|---|---|
| ChatEngine.SelectProvider | services/chat_engine.py:8-16 | A non-empty DeepSeek key selects that key, the DeepSeek base URL and "deepseek-chat"; otherwise the OpenAI key is used with no base URL and "gpt-3.5-turbo" (each as an if-and-only-if on the DeepSeek key's truthiness) |
| ChatEngine.LoadModule | services/chat_engine.py:8-17 | The import fails exactly when the selected key is missing, because the client constructor refuses it; otherwise the engine's provider settings are the ones selected from the environment, with a key |
| ChatEngine.LoadFailsIffNoKey | services/chat_engine.py:8-17 | The import fails exactly when the DeepSeek key is falsy and the OpenAI key is unset; a loaded engine's key is refused by the guard exactly when it is empty or contains "placeholder" |
| ChatEngine.KeyUsable | services/chat_engine.py:47 | A key passes the guard exactly when it is present, non-empty and "placeholder" occurs at no position in it |
| ChatEngine.StatusNamesDistinct | services/chat_engine.py:102-106 | The three statuses reach the client as three different strings |
| ChatEngine.DocumentBlock | services/chat_engine.py:59 | A document's block starts with the reference header carrying its title and ends with "..."; it is exactly as long as the title, the content capped at 5000 characters, and the 34 characters of framing |
| ChatEngine.DeepSeekShadowsOpenAi | services/chat_engine.py:8-10 | A set DeepSeek key makes the OpenAI key irrelevant, even when it is a placeholder that the guard later refuses |
| ChatEngine.UsableKeyComesFromEnvironment | services/chat_engine.py:8-10 | A key that passes the guard is one of the two environment variables, unchanged |
| ChatEngine.GenerateResponse | services/chat_engine.py:45-126 | Without a usable key the result is the fixed configuration error with status risk; a failing history query gives the fallback for its error; otherwise the result is the provider's answer handled by `Finish` |
| ChatEngine.GuardSkipsEverything | services/chat_engine.py:47-51 | With a missing, empty or "placeholder" key nothing else is consulted: any knowledge base, history or provider gives the same result, with status risk |
| ChatEngine.Classify | services/chat_engine.py:102-106 | Risk exactly when the text holds the alert glyph or "riesgo" in lower case; document exactly when it has no risk marker but holds "contrato" or "documento"; analyzing exactly when neither |
| ChatEngine.ClassifyIgnoresCase | services/chat_engine.py:103-105 | Lower-casing the reply first never changes its status |
| ChatEngine.ClassifyMonotone | services/chat_engine.py:102-106 | Adding text before or after a reply never lowers its status: risk stays risk, and a reply with a status other than analyzing keeps one |
| ChatEngine.Finish | services/chat_engine.py:98-108 | A completed reply is returned verbatim with its keyword status; an error from the provider becomes the fallback for that error |
| ChatEngine.Fallback | services/chat_engine.py:113-126 | Status is risk with the quota text exactly when the error mentions "insufficient_quota" or "429"; otherwise the apology text with status analyzing |
| ChatEngine.ReplyIsVerbatimOrFixed | services/chat_engine.py:98-126 | When the provider answers, the text is its answer unchanged and the status is its classification; otherwise the text is one of the three fixed messages and the status is never document |
| ChatEngine.DocumentBlockShape | services/chat_engine.py:59 | A document's block is the header with its title, then a prefix of its content that is exactly 5000 characters long when the content is longer, then "..."; a short content appears whole, followed by "..." |
| ChatEngine.DocumentBlockIgnoresTail | services/chat_engine.py:59 | Two documents with the same title and the same first 5000 characters give the same block |
| ChatEngine.SystemPromptFor | services/chat_engine.py:55-67 | The prompt equals the base prompt exactly when the knowledge base is empty or failed to load, and always starts with the base prompt |
| ChatEngine.EveryDocumentInPrompt | services/chat_engine.py:58-62 | Every loaded document's block appears whole in the prompt |
| ChatEngine.PayloadRole | services/chat_engine.py:86 | A stored "assistant" stays assistant; every other stored role, including "system", becomes user; never system |
| ChatEngine.HistoryQuery | services/chat_engine.py:79 | At most 10 messages of the given conversation, newest first, forming a sub-multiset of the messages table (no row twice) |
| ChatEngine.HistoryQueryKeepsNewest | services/chat_engine.py:79 | A message of the conversation left out is no newer than any returned, and one is left out only when 10 are returned |
| ChatEngine.Payload | services/chat_engine.py:69-90 | The payload has the history's length plus two; the first entry is the system prompt, the last is the user's message, no later entry is a system entry, and history entry k sits at position length-k with its role mapped |
| ChatEngine.PayloadHistoryChronological | services/chat_engine.py:79-87 | The history entries between system and user entries come from the reversed query result, which is oldest first |
| ChatEngine.RequestFor | services/chat_engine.py:55-96 | The request fails exactly when a truthy conversation id meets a failing message query, with that error; otherwise it carries the selected model and URL, temperature 0.3, between 2 and 12 entries, the assembled system prompt first and the user message last; a falsy conversation id gives exactly 2 entries. The entries are the payload built from the system prompt, the conversation's history query (empty for a falsy id) and the message, so the provider receives the ten newest messages oldest first |
| ChatEngine.NoConversationNoHistory | services/chat_engine.py:71 | With a falsy conversation id the message table is never read: any contents give the same result |
| Models.RoleNamesDistinct | models.py:32 | Each sender role is stored as its own enum value |
| Models.StatusNamesDistinct | models.py:22 | Each conversation status is stored as its own enum value |
| App.Login | app.py:22-37 | Success exactly when the first user with the given e-mail stores exactly the given password; the returned user is that stored user; 401 exactly on failure |
| App.LoginIffCredentialsMatch | app.py:32-34 | With unique e-mails, login succeeds exactly when some user has both the e-mail and the password |
| App.Title | app.py:55 | A title is the message itself when at most 40 characters long, else its first 40 characters followed by "..."; never longer than 43 |
| App.Chat | app.py:39-86 | A failed engine import gives 500. A falsy message gives 400 and an unknown conversation id gives 404. A new conversation for a user id that is not stored gives 500, since its commit breaks the foreign key; the refused insert still uses up the next conversation id. Every other failure leaves the store unchanged, no failure changes anything but that counter, and the reply is a success (200) exactly when none of them applies; the codes 400 and 500 are stated as if-and-only-ifs, and 400 and 404 carry the errors "Message required" and "Conversation not found". On success: exactly two messages are appended with the next two message ids, the user's text then the engine's reply, both in the answered conversation, and the message counter rises by two. The reply carries the engine's text and status. An existing conversation is left unchanged, its title is returned, and the conversation counter stays; a new one gets the next conversation id, which the counter then passes, with the user id, the derived title and status active. Users, knowledge and its counter are untouched |
| App.Converse | app.py:65-86 | The reply names the conversation with its title and carries the engine's text and status; exactly the user's message then the assistant's are appended with the next two ids, and nothing but the message table and its counter changes |
| App.StoredDocumentInPrompt | services/chat_engine.py:55-62 | Every stored knowledge item's block reaches the chat's system prompt whenever the knowledge-base query succeeds |
| App.ChatPreservesValid | app.py:53-78 | A chat keeps every integrity constraint of the store |
| App.ChatCreatingPreservesValid | app.py:54-59 | A chat that opens a conversation for a stored user, or for none, keeps the store valid |
| App.ChatContinuingPreservesValid | app.py:60-63 | A chat in a stored conversation keeps the store valid |
| App.ConversePreservesValid | app.py:65-78 | Appending the user and assistant messages of a stored conversation keeps the store valid |
| App.AppendPairPreservesValid | app.py:65-78 | Two messages with the next two ids, both of stored conversations, keep the store valid |
| App.CreatePreservesValid | app.py:54-59 | Creating a conversation with the next id and a stored owner (or none) keeps the store valid and makes that id stored |
| App.KnownConversationIsAnswered | app.py:60-70 | Once the engine is loaded, a stored conversation id with a non-empty message is always found and answered under that id |
| App.UserConversations | app.py:91 | The user's conversations ordered by last update, newest first, as a permutation of exactly the rows owned by the user |
| App.UserConversationsSound | app.py:91 | Every conversation listed is stored and owned by the user |
| App.GetConversations | app.py:88-101 | One listing per conversation of the user, in that newest-first order, carrying its id, title and update time |
| App.GetConversationsComplete | app.py:91 | Every conversation of the user is listed |
| App.GetMessages | app.py:103-116 | The listing is oldest first, holds only messages of the conversation, and is a permutation of that conversation's messages |
| App.GetMessagesComplete | app.py:106 | A message is listed exactly when it is stored and belongs to the conversation |
| App.ChatMessagesAreListed | app.py:65-78 | The two messages a chat appends are listed for that conversation |
| Admin.CheckAdmin | admin_routes.py:11-13 | True exactly when an id is given, a user with it is found and that user is an admin |
| Admin.CheckAdminIffAdminUser | admin_routes.py:11-13 | With unique ids, admin exactly when some user has that id and is an admin |
| Admin.OwnerEmail | admin_routes.py:61-67 | The owner's e-mail when the conversation has a truthy owner id that is found, else "Anonymous" |
| Admin.OwnerEmailOfStoredUser | admin_routes.py:61-67 | With unique user ids, a conversation owned by a stored user with a non-zero id shows that user's e-mail |
| Admin.NewestConversations | admin_routes.py:58 | The first 50 (or all, if fewer) conversations ordered by last update, newest first, forming a sub-multiset of the table (no row twice) |
| Admin.RecentConversations | admin_routes.py:55-69 | Exactly min(50, count) summaries, newest first; summary i summarises the i-th of the newest conversations, so each summarises a stored conversation and none is repeated |
| Admin.RecentConversationsAreNewest | admin_routes.py:58 | A conversation left off the dashboard is no newer than any shown, and one is left off only when 50 are shown |
| Admin.ExtractText | admin_routes.py:85-87 | The page loop builds every page's text followed by a newline, in page order |
| Admin.PagesText | admin_routes.py:85-87 | The extracted text is as long as the pages' texts together plus one newline per page, starts with the first page's text and, when there are pages, ends with a newline |
| Admin.PagesTextAppend | admin_routes.py:86-87 | The text of a document is the text of its first pages followed by the text of the rest |
| Admin.Upload | admin_routes.py:71-102 | No file gives "No file part", an empty name "No selected file", a name not ending in ".pdf" after lower-casing is rejected, and a reader failure gives 500 with "Failed to process file: " and its error (400 exactly for the first three). A file name over 255 characters, or a text over 65,535 bytes of UTF-8, gives 500 naming the refused column (the title first). Every failure leaves the store unchanged. A store happens exactly for a named PDF that reads and fits. It appends one item with the next id, the file name as title, type "pdf", the page text as content, and nothing else changes |
| Admin.IsPdfName | admin_routes.py:79 | A file name passes exactly when its last four characters, lower-cased, are ".pdf" |
| Admin.PdfNameIgnoresCase | admin_routes.py:79 | A file name and its lower-cased form pass or fail the extension check together |
| Admin.UploadPreservesValid | admin_routes.py:90-97 | An upload keeps every integrity constraint of the store |
| Admin.Preview | admin_routes.py:116 | The preview is the content when at most 100 characters long, else exactly 103 characters: its first 100 characters followed by "..." |
| Admin.KnowledgeListings | admin_routes.py:104-118 | One listing per item, newest first; listing i is that of the i-th item of the newest-first permutation of the table; each preview at most 103 characters |
| Admin.KnowledgeListingsComplete | admin_routes.py:107 | Every stored item is listed |
| Admin.KnowledgeListingsSound | admin_routes.py:107-117 | Every listing is the listing of a stored item |
| Admin.DeleteKnowledge | admin_routes.py:120-129 | 200 exactly when some item has the id; 404, with "Document not found", exactly when no item has the id, leaving the store unchanged; otherwise only the knowledge table changes, no remaining item has the id, and every other item remains |
| Admin.DeleteRemovesOne | admin_routes.py:123-128 | With unique ids a successful delete removes exactly one item |
| Admin.DeletePreservesValid | admin_routes.py:120-129 | A delete keeps every integrity constraint of the store |
| Schema.CommandsShape | run_schema.py:27-30 | Each command is one of the split pieces, unstripped and not blank. Every non-blank piece is a command. No command contains ';'. There are at most as many commands as ';' characters plus one |
| Schema.Commands | run_schema.py:27-30 | No command is blank, and there are at most as many commands as ';' characters plus one |
| Schema.PiecesRebuildSchema | run_schema.py:27 | Joining the pieces with ';' gives the schema text back |
| Schema.ExecuteInOrder | run_schema.py:28-30 | Commands run in order, each on the database its predecessors left. Success means every command ran and succeeded. Otherwise a prefix of the commands ran, all succeeding but the last, which failed |
| Schema.RunSchema | run_schema.py:13-36 | A failing file read or connection runs nothing. `commit()` is called only after every command of the schema ran and succeeded. Otherwise the run stopped at the first failing command |
| Schema.AcceptedEach | run_schema.py:28-30 | In a run where every command succeeded, command k succeeded on the database the first k commands left |
| Schema.RepeatedCommandCanFail | run_schema.py:27-30 | The schema "c;c" has the two commands "c" and "c", and a database that accepts a command only once yields the run that executes both and stops at the second |
| Strings.SplitJoinRoundTrip | run_schema.py:27 | Joining the parts of `split(sep)` with `sep` gives back the original text |
| Strings.Split | run_schema.py:27 | `split(sep)` yields one more part than there are separators |
| Strings.SplitPartsFree | run_schema.py:27 | No part of `split(sep)` contains the separator |
| Strings.Utf8Size | models.py:40 | A text takes between one and four bytes per character in UTF-8 |
| Strings.Utf8SizeAppend | models.py:40 | The size of a concatenation is the sum of the sizes |
| Strings.Utf8SizeAscii | models.py:40 | A text takes one byte per character exactly when it is all ASCII |
| Models.AsciiFitsTextByLength | models.py:40 | ASCII text fits a `TEXT` column exactly when it has at most 65,535 characters |
| Strings.Ellipsize | app.py:55 | The shortening `s[:n] + "..." if len(s) > n else s` keeps short texts, starts with the first n characters, and ends with "..." at length n+3 when it cuts |
| Strings.EllipsizeIdempotent | admin_routes.py:116 | Shortening a shortened text changes nothing |
| Strings.ContainsLowerCaseless | services/chat_engine.py:103 | Text without ASCII letters (the alert glyph) is found in the lower-cased text exactly when found in the original |

## Left out

- Network: the completion client (services/chat_engine.py:92-98) is an input function; only its constructor's refusal of a missing key is modelled. A reply whose content is `None` raises in the classifier and falls back to the apology; the model lets the provider return that failure as an `Err`.
- Persistence: SQLAlchemy sessions, `add` and `commit` are not modelled. Each handler's effect is the returned store. Two commit failures the data decides are modelled: a new conversation naming a missing user (`App.Chat`), and a knowledge title or text too long for its column (`Admin.Upload`). Failures of the database itself are not modelled.
- Column limits assume MySQL's default strict mode and the utf8mb4 character set. Without strict mode, MySQL truncates an over-long value with a warning; with another character set, the byte count and the set of storable characters differ.
- Admin.Upload: the error text of a refused column is only the start of SQLAlchemy's message. The SQL statement, parameters and documentation link that follow it are not modelled. A refused upload leaves the knowledge counter unchanged, because MySQL checks column lengths while converting the row, before InnoDB assigns the id.
- App.Chat: stores messages of any length. The `messages.content` column is `TEXT` (models.py:33) and refuses more than 65,535 bytes, but where that refusal surfaces depends on when the session autoflushes during the engine's own queries, so it is not modelled.
- Schema.RunSchema: the model says only when `connection.commit()` (run_schema.py:32) is called, not what is durable. MySQL commits every DDL statement (and the work before it) implicitly, so after a failure the statements before it can remain applied. The database's contents are not tracked.
- App.Login: compares e-mails exactly. MySQL's default collations compare them more loosely: utf8mb4_0900_ai_ci (MySQL 8) ignores case and accents, and utf8mb4_general_ci (MySQL 5.7) ignores case and trailing spaces. The program therefore also matches an e-mail typed in another case, with or without accents, or with trailing spaces, depending on the server. Likewise, `Models.UniqueUsers` admits two e-mails that the database's unique index refuses as equal under that collation.
- History timing in `chat`: the user message is added to the session before `generate_response` queries history. Whether autoflush makes it visible to that query depends on session settings, so `App.Chat` takes the message table the engine sees as an opaque input and asserts nothing either way.
- PDF extraction: the reader's pages (or its exception) are an input of `Admin.UploadedFile`.
- Lower-casing: `Strings.Lower` changes ASCII letters only. Python's `str.lower()` also maps other letters, so a non-ASCII capital in "RIESGO"-like text or a file name is not folded.
- ChatEngine.LoadModule: states the failure and the provider part, not the base prompt. Its base prompt is the `SystemPrompt` constant by definition; an ensures repeating that equality costs the verifier more than it adds.
- Timestamps: `created_at`/`updated_at` are integers supplied as `now`; both messages of one chat get the same `now`. `updated_at`'s `onupdate` refresh is not modelled because no handler here updates a conversation row.
- JSON shapes: reply bodies are datatypes with their HTTP code and error text, without the `jsonify`/`isoformat` serialisation, the dummy token, or the success messages.
- A request whose body is not JSON (`request.get_json()` returning `None`) raises in Flask before any decision; not modelled.
- `print` logging in the handlers and the engine is not modelled.
- `get_stats`, `get_users`, the `/` and `/api/health` routes, and the migration, setup, debug and test scripts are not part of this model.
- The temperature 0.3 is a constant of the request; the provider's behaviour for it is not modelled.

=== FILE: admin.dfy ===
/** admin_routes.py: the admin check, the recent-conversation listing and the
    knowledge-base upload, listing and deletion handlers. PDF text extraction
    is an input: the uploaded file carries the page texts the reader would
    return, or the error it would raise. */
module Admin {
  import opened Base
  import opened Strings
  import opened Sequences
  import opened Models

  /** Conversations shown on the admin dashboard. */
  const RecentLimit: nat := 50
  /** Characters of a knowledge item shown in the listing. */
  const PreviewLimit: nat := 100
  const AnonymousEmail: string := "Anonymous"
  /** What the page loop appends after each page's text. */
  const PageEnd: string := "\n"

  // ---------------------------------------------------------------------
  // check_admin

  /** `user and user.is_admin` for the user with the given primary key. */
  function CheckAdmin(users: seq<User>, userId: Option<int>): (r: bool)
    ensures r <==> userId.Some? && UserById(users, userId.value).Some? && UserById(users, userId.value).value.isAdmin
  {
    if userId.None? then false
    else
      match UserById(users, userId.value)
      case None => false
      case Some(u) => u.isAdmin
  }

  /** With unique primary keys: admin exactly when a user with that id exists and is an admin. */
  lemma CheckAdminIffAdminUser(users: seq<User>, id: int)
    requires UniqueUsers(users)
    ensures CheckAdmin(users, Some(id)) <==> exists i :: 0 <= i < |users| && users[i].id == id && users[i].isAdmin
  {
    if exists i :: 0 <= i < |users| && users[i].id == id && users[i].isAdmin {
      var i :| 0 <= i < |users| && users[i].id == id && users[i].isAdmin;
      var f := UserById(users, id);
      var j :| FirstMatch(users, (u: User) => u.id == id, j) && users[j] == f.value;
      assert i == j;
    }
  }

  // ---------------------------------------------------------------------
  // GET /api/admin/conversations

  datatype ConversationSummary = ConversationSummary(
    id: int, title: string, status: ConversationStatus, updatedAt: int, userEmail: string)

  function SummaryUpdatedAt(c: ConversationSummary): int { c.updatedAt }

  /** The owner's e-mail, or "Anonymous" when the conversation has no (existing) owner. */
  function OwnerEmail(users: seq<User>, c: Conversation): (e: string)
    ensures TruthyId(c.userId) && UserById(users, c.userId.value).Some? ==> e == UserById(users, c.userId.value).value.email
    ensures !(TruthyId(c.userId) && UserById(users, c.userId.value).Some?) ==> e == AnonymousEmail
  {
    if TruthyId(c.userId) then
      match UserById(users, c.userId.value)
      case Some(u) => u.email
      case None => AnonymousEmail
    else AnonymousEmail
  }

  /** A conversation whose owner is a stored user is shown with that user's
      e-mail; ids are unique, so it is the right user's. */
  lemma OwnerEmailOfStoredUser(users: seq<User>, c: Conversation, i: int)
    requires UniqueUsers(users)
    requires 0 <= i < |users| && c.userId == Some(users[i].id) && users[i].id != 0
    ensures OwnerEmail(users, c) == users[i].email
  {
    var id := users[i].id;
    assert UserById(users, id).Some?;
    var j :| FirstMatch(users, (u: User) => u.id == id, j) && users[j] == UserById(users, id).value;
    assert i == j;
  }

  function Summarize(users: seq<User>, c: Conversation): ConversationSummary {
    ConversationSummary(c.id, c.title, c.status, c.updatedAt, OwnerEmail(users, c))
  }

  function NewestConversations(conversations: seq<Conversation>): (r: seq<Conversation>)
    ensures |r| == if |conversations| <= RecentLimit then |conversations| else RecentLimit
    ensures Descending(r, ConversationUpdatedAt)
    ensures multiset(r) <= multiset(conversations)
    ensures forall i :: 0 <= i < |r| ==> r[i] in conversations
  {
    var sorted := SortDescending(conversations, ConversationUpdatedAt);
    TakeFirstDescending(sorted, RecentLimit, ConversationUpdatedAt);
    var r := TakeFirst(sorted, RecentLimit);
    SubMultisetMembers(r, conversations);
    r
  }

  function SummariesOf(users: seq<User>, cs: seq<Conversation>): (r: seq<ConversationSummary>)
    ensures |r| == |cs|
    ensures forall i :: 0 <= i < |r| ==> r[i] == Summarize(users, cs[i])
  {
    seq(|cs|, i requires 0 <= i < |cs| => Summarize(users, cs[i]))
  }

  /** `get_recent_conversations()`: the 50 most recently updated conversations, newest first. */
  function RecentConversations(store: Store): (r: seq<ConversationSummary>)
    ensures |r| <= RecentLimit
    ensures |r| == if |store.conversations| <= RecentLimit then |store.conversations| else RecentLimit
    ensures Descending(r, SummaryUpdatedAt)
    ensures forall i :: 0 <= i < |r| ==> r[i] == Summarize(store.users, NewestConversations(store.conversations)[i])
    ensures forall i :: 0 <= i < |r| ==>
      exists j :: 0 <= j < |store.conversations| && r[i] == Summarize(store.users, store.conversations[j])
  {
    var newest := NewestConversations(store.conversations);
    forall i | 0 <= i < |newest|
      ensures exists j :: 0 <= j < |store.conversations| && newest[i] == store.conversations[j]
    {
      assert newest[i] in store.conversations;
    }
    SummariesOf(store.users, newest)
  }

  /** No conversation left off the dashboard is newer than one shown on it,
      and one is left off only when the dashboard is full. */
  lemma RecentConversationsAreNewest(store: Store, c: Conversation, i: int)
    requires c in store.conversations && c !in NewestConversations(store.conversations)
    requires 0 <= i < |NewestConversations(store.conversations)|
    ensures c.updatedAt <= RecentConversations(store)[i].updatedAt
    ensures |RecentConversations(store)| == RecentLimit
  {
    var sorted := SortDescending(store.conversations, ConversationUpdatedAt);
    MultisetMembers(sorted, store.conversations, c);
    TakeFirstKeepsTop(sorted, RecentLimit, ConversationUpdatedAt, c, i);
  }

  // ---------------------------------------------------------------------
  // POST /api/admin/knowledge

  /** An entry of `request.files`: its file name and what the PDF reader yields for it. */
  datatype UploadedFile = UploadedFile(filename: string, pages: Outcome<seq<string>>)

  datatype UploadReply =
    | Uploaded(id: int)
    | NoFilePart
    | NoSelectedFile
    | NotPdf
    | ProcessingFailed(reason: string)
    | ColumnTooLong(column: string)
  {
    function Code(): int {
      match this
      case Uploaded(_) => 200
      case NoFilePart => 400
      case NoSelectedFile => 400
      case NotPdf => 400
      case ProcessingFailed(_) => 500
      case ColumnTooLong(_) => 500
    }

    function ErrorText(): string {
      match this
      case Uploaded(_) => ""
      case NoFilePart => "No file part"
      case NoSelectedFile => "No selected file"
      case NotPdf => "Only PDF files are supported currently"
      case ProcessingFailed(reason) => "Failed to process file: " + reason
      case ColumnTooLong(column) =>
        "Failed to process file: (pymysql.err.DataError) (1406, \"Data too long for column '" + column + "' at row 1\")"
    }
  }

  /** `filename.lower().endswith('.pdf')`: the last four characters spell
      ".pdf" in any mix of cases. */
  function IsPdfName(filename: string): (ok: bool)
    ensures ok <==> |filename| >= 4 && Lower(filename[|filename| - 4..]) == ".pdf"
  {
    assert |filename| >= 4 ==> Lower(filename)[|filename| - 4..] == Lower(filename[|filename| - 4..]);
    IsSuffix(".pdf", Lower(filename))
  }

  /** The extracted text: every page's text followed by a newline. */
  function PagesText(pages: seq<string>): (r: string)
    ensures |r| == TotalLength(pages) + |pages|
    ensures |pages| > 0 ==> IsSuffix(PageEnd, r)
    ensures |pages| > 0 ==> IsPrefix(pages[0], r)
  {
    if |pages| == 0 then "" else pages[0] + PageEnd + PagesText(pages[1..])
  }

  function TotalLength(pages: seq<string>): nat {
    if |pages| == 0 then 0 else |pages[0]| + TotalLength(pages[1..])
  }

  /** The text of a document is the text of its first pages followed by the text of the rest. */
  lemma {:induction false} PagesTextAppend(a: seq<string>, b: seq<string>)
    ensures PagesText(a + b) == PagesText(a) + PagesText(b)
    decreases |a|
  {
    if |a| == 0 {
      assert a + b == b;
    } else {
      assert (a + b)[1..] == a[1..] + b;
      PagesTextAppend(a[1..], b);
    }
  }

  /** The page loop of `upload_knowledge`: each page's text is appended, then a newline. */
  method ExtractText(pages: seq<string>) returns (extracted: string)
    ensures extracted == PagesText(pages)
  {
    extracted := "";
    var i := 0;
    while i < |pages|
      invariant 0 <= i <= |pages|
      invariant extracted == PagesText(pages[..i])
    {
      PagesTextAppend(pages[..i], [pages[i]]);
      assert pages[..i + 1] == pages[..i] + [pages[i]];
      assert PagesText([pages[i]]) == pages[i] + PageEnd;
      extracted := extracted + pages[i] + PageEnd;
      i := i + 1;
    }
    assert pages[..i] == pages;
  }

  /** The column a strict-mode MySQL names when refusing the row, checking
      the columns in the order of the insert: `title`, then `content`. */
  function RefusedColumn(title: string, content: string): Option<string> {
    if !FitsVarchar(title) then Some("title")
    else if !FitsText(content) then Some("content")
    else None
  }

  /** `upload_knowledge()`: validate the file, then store its text as a new
      knowledge item; the commit refuses a title or text too long for its column. */
  function Upload(store: Store, file: Option<UploadedFile>, now: int): (out: (UploadReply, Store))
    ensures file.None? ==> out == (NoFilePart, store)
    ensures file.Some? && file.value.filename == "" ==> out == (NoSelectedFile, store)
    ensures file.Some? && file.value.filename != "" && !IsPdfName(file.value.filename) ==> out == (NotPdf, store)
    ensures out.0.Uploaded? <==> file.Some? && file.value.filename != "" && IsPdfName(file.value.filename) && file.value.pages.Ok?
                                 && FitsVarchar(file.value.filename) && FitsText(PagesText(file.value.pages.value))
    ensures out.0.ColumnTooLong? <==> file.Some? && file.value.filename != "" && IsPdfName(file.value.filename) && file.value.pages.Ok?
                                      && !(FitsVarchar(file.value.filename) && FitsText(PagesText(file.value.pages.value)))
    ensures out.0.ColumnTooLong? ==> out.0.column == (if FitsVarchar(file.value.filename) then "content" else "title")
    ensures !out.0.Uploaded? ==> out.1 == store
    ensures file.Some? && file.value.filename != "" && IsPdfName(file.value.filename) && file.value.pages.Err? ==>
      out == (ProcessingFailed(file.value.pages.error), store)
    ensures out.0.Code() == 400 <==> file.None? || file.value.filename == "" || !IsPdfName(file.value.filename)
    ensures out.0.Code() == 500 <==> out.0.ProcessingFailed? || out.0.ColumnTooLong?
    ensures out.0.ProcessingFailed? ==> out.0.ErrorText() == "Failed to process file: " + file.value.pages.error
    ensures out.0.ProcessingFailed? ==> file.Some? && file.value.pages.Err? && out.0.reason == file.value.pages.error
    ensures out.0.Uploaded? ==>
      && |out.1.knowledge| == |store.knowledge| + 1
      && out.1 == store.(knowledge := out.1.knowledge, nextKnowledgeId := store.nextKnowledgeId + 1)
      && out.1.knowledge[..|store.knowledge|] == store.knowledge
      && var item := out.1.knowledge[|store.knowledge|];
         item.id == out.0.id == store.nextKnowledgeId && item.title == file.value.filename
         && item.fileType == "pdf" && item.content == PagesText(file.value.pages.value)
         && item.createdAt == now
  {
    if file.None? then (NoFilePart, store)
    else if file.value.filename == "" then (NoSelectedFile, store)
    else if !IsPdfName(file.value.filename) then (NotPdf, store)
    else
      match file.value.pages
      case Err(e) => (ProcessingFailed(e), store)
      case Ok(pages) =>
        var item := KnowledgeItem(store.nextKnowledgeId, file.value.filename, PagesText(pages), "pdf", now);
        match RefusedColumn(item.title, item.content)
        case Some(column) => (ColumnTooLong(column), store)
        case None =>
          (Uploaded(item.id), store.(knowledge := store.knowledge + [item], nextKnowledgeId := store.nextKnowledgeId + 1))
  }

  /** The extension check ignores letter case, so "X.PDF" and "x.pdf" are treated alike. */
  lemma PdfNameIgnoresCase(filename: string)
    ensures IsPdfName(Lower(filename)) <==> IsPdfName(filename)
  {
    LowerIdempotent(filename);
  }

  lemma UploadPreservesValid(store: Store, file: Option<UploadedFile>, now: int)
    requires Valid(store)
    ensures Valid(Upload(store, file, now).1)
  {
  }

  // ---------------------------------------------------------------------
  // GET /api/admin/knowledge

  /** `content[:100] + "..." if len(content) > 100 else content`. */
  function Preview(content: string): (p: string)
    ensures |p| <= PreviewLimit + 3
    ensures |content| <= PreviewLimit ==> p == content
    ensures |content| > PreviewLimit ==> IsPrefix(content[..PreviewLimit], p) && IsSuffix("...", p) && |p| == PreviewLimit + 3
  {
    Ellipsize(content, PreviewLimit)
  }

  datatype KnowledgeListing = KnowledgeListing(id: int, title: string, fileType: string, createdAt: int, contentPreview: string)

  function ListingCreatedAt(k: KnowledgeListing): int { k.createdAt }

  function ListingOf(k: KnowledgeItem): KnowledgeListing {
    KnowledgeListing(k.id, k.title, k.fileType, k.createdAt, Preview(k.content))
  }

  function ListingsOf(items: seq<KnowledgeItem>): (r: seq<KnowledgeListing>)
    ensures |r| == |items|
    ensures forall i :: 0 <= i < |r| ==> r[i] == ListingOf(items[i])
  {
    seq(|items|, i requires 0 <= i < |items| => ListingOf(items[i]))
  }

  /** `get_knowledge_base()`: every item, newest first, with a shortened preview. */
  function KnowledgeListings(items: seq<KnowledgeItem>): (r: seq<KnowledgeListing>)
    ensures |r| == |items|
    ensures Descending(r, ListingCreatedAt)
    ensures forall i :: 0 <= i < |r| ==> r[i] == ListingOf(SortDescending(items, KnowledgeCreatedAt)[i])
    ensures forall i :: 0 <= i < |r| ==> |r[i].contentPreview| <= PreviewLimit + 3
  {
    var sorted := SortDescending(items, KnowledgeCreatedAt);
    var r := ListingsOf(sorted);
    assert forall i :: 0 <= i < |r| ==> r[i].createdAt == sorted[i].createdAt;
    r
  }

  /** The listing shows every stored item. */
  lemma KnowledgeListingsComplete(items: seq<KnowledgeItem>, k: KnowledgeItem)
    requires k in items
    ensures ListingOf(k) in KnowledgeListings(items)
  {
    var sorted := SortDescending(items, KnowledgeCreatedAt);
    MultisetMembers(sorted, items, k);
    var m :| 0 <= m < |sorted| && sorted[m] == k;
    assert KnowledgeListings(items)[m] == ListingOf(k);
  }

  /** The listing shows only stored items. */
  lemma KnowledgeListingsSound(items: seq<KnowledgeItem>, i: int)
    requires 0 <= i < |KnowledgeListings(items)|
    ensures exists j :: 0 <= j < |items| && KnowledgeListings(items)[i] == ListingOf(items[j])
  {
    var sorted := SortDescending(items, KnowledgeCreatedAt);
    MultisetMembers(sorted, items, sorted[i]);
    var j :| 0 <= j < |items| && items[j] == sorted[i];
    assert KnowledgeListings(items)[i] == ListingOf(items[j]);
  }

  // ---------------------------------------------------------------------
  // DELETE /api/admin/knowledge/<id>

  datatype DeleteReply = Deleted | DocumentNotFound {
    function Code(): int { if Deleted? then 200 else 404 }
    function ErrorText(): string { if Deleted? then "" else "Document not found" }
  }

  /** `delete_knowledge(id)`: remove the item with that id, or answer 404 and change nothing. */
  function DeleteKnowledge(store: Store, id: int): (out: (DeleteReply, Store))
    ensures out.0.DocumentNotFound? <==> forall i :: 0 <= i < |store.knowledge| ==> store.knowledge[i].id != id
    ensures out.0.Code() == 200 <==> exists i :: 0 <= i < |store.knowledge| && store.knowledge[i].id == id
    ensures out.0.ErrorText() == "Document not found" <==> forall i :: 0 <= i < |store.knowledge| ==> store.knowledge[i].id != id
    ensures out.0.DocumentNotFound? ==> out.1 == store
    ensures out.0.Deleted? ==> out.1 == store.(knowledge := out.1.knowledge)
    ensures forall i :: 0 <= i < |out.1.knowledge| ==> out.1.knowledge[i].id != id && out.1.knowledge[i] in store.knowledge
    ensures forall i :: 0 <= i < |store.knowledge| && store.knowledge[i].id != id ==> store.knowledge[i] in out.1.knowledge
  {
    match KnowledgeById(store.knowledge, id)
    case None => (DocumentNotFound, store)
    case Some(_) => (Deleted, store.(knowledge := Filter(store.knowledge, (k: KnowledgeItem) => k.id != id)))
  }

  /** With unique ids, a successful delete removes exactly one item. */
  lemma DeleteRemovesOne(store: Store, id: int)
    requires UniqueKnowledge(store.knowledge)
    requires DeleteKnowledge(store, id).0.Deleted?
    ensures |DeleteKnowledge(store, id).1.knowledge| == |store.knowledge| - 1
  {
    var j :| 0 <= j < |store.knowledge| && store.knowledge[j].id == id;
    FilterDropsOne(store.knowledge, id, j);
  }

  lemma {:induction false} FilterDropsOne(ks: seq<KnowledgeItem>, id: int, j: int)
    requires UniqueKnowledge(ks)
    requires 0 <= j < |ks| && ks[j].id == id
    ensures |Filter(ks, (k: KnowledgeItem) => k.id != id)| == |ks| - 1
    decreases |ks|
  {
    if j == 0 {
      FilterKeepsAll(ks[1..], (k: KnowledgeItem) => k.id != id);
    } else {
      FilterDropsOne(ks[1..], id, j - 1);
    }
  }

  lemma DeletePreservesValid(store: Store, id: int)
    requires Valid(store)
    ensures Valid(DeleteKnowledge(store, id).1)
  {
    var after := DeleteKnowledge(store, id).1.knowledge;
    forall i, j | 0 <= i < j < |after| ensures after[i].id != after[j].id {
      if DeleteKnowledge(store, id).0.Deleted? {
        FilterKeepsUnique(store.knowledge, id);
      }
    }
  }

  lemma {:induction false} FilterKeepsUnique(ks: seq<KnowledgeItem>, id: int)
    requires UniqueKnowledge(ks)
    ensures UniqueKnowledge(Filter(ks, (k: KnowledgeItem) => k.id != id))
    decreases |ks|
  {
    if |ks| > 0 {
      FilterKeepsUnique(ks[1..], id);
      var rest := Filter(ks[1..], (k: KnowledgeItem) => k.id != id);
      forall i | 0 <= i < |rest| ensures rest[i].id != ks[0].id {
        var j :| 0 <= j < |ks[1..]| && ks[1..][j] == rest[i];
        assert ks[j + 1] == rest[i];
      }
    }
  }
}

=== FILE: app.dfy ===
/** app.py: the `login`, `chat`, `get_conversations` and `get_messages`
    handlers, each a function from the store (and the request fields) to a
    reply and, for `chat`, the new store. */
module App {
  import opened Base
  import opened Strings
  import opened Sequences
  import opened Models
  import opened ChatEngine

  /** Characters of the first message kept in a new conversation's title. */
  const TitleLimit: nat := 40

  // ---------------------------------------------------------------------
  // POST /api/login

  datatype LoginReply = LoginOk(user: User) | LoginDenied {
    function Code(): int { if LoginOk? then 200 else 401 }
  }

  const InvalidCredentials: string := "Credenciales inválidas"

  /** The first user with the given e-mail must store exactly the given password. */
  function Login(users: seq<User>, email: Option<string>, password: Option<string>): (r: LoginReply)
    ensures r.LoginOk? <==>
      email.Some? && UserByEmail(users, email.value).Some?
      && password == Some(UserByEmail(users, email.value).value.passwordHash)
    ensures r.LoginOk? ==> r.user in users && Some(r.user.email) == email && Some(r.user.passwordHash) == password
    ensures r.Code() == 401 <==> !r.LoginOk?
  {
    if email.None? then LoginDenied
    else
      match UserByEmail(users, email.value)
      case None => LoginDenied
      case Some(u) => if password == Some(u.passwordHash) then LoginOk(u) else LoginDenied
  }

  /** With unique e-mails, login succeeds exactly when some user has both the
      e-mail and the password given. */
  lemma LoginIffCredentialsMatch(users: seq<User>, email: Option<string>, password: Option<string>)
    requires UniqueUsers(users)
    ensures Login(users, email, password).LoginOk? <==>
      exists i :: 0 <= i < |users| && Some(users[i].email) == email && Some(users[i].passwordHash) == password
  {
    if exists i :: 0 <= i < |users| && Some(users[i].email) == email && Some(users[i].passwordHash) == password {
      var i :| 0 <= i < |users| && Some(users[i].email) == email && Some(users[i].passwordHash) == password;
      var f := UserByEmail(users, email.value);
      var j :| FirstMatch(users, (u: User) => u.email == email.value, j) && users[j] == f.value;
      assert i == j;
    }
  }

  // ---------------------------------------------------------------------
  // POST /api/chat

  /** A new conversation's title: the message, cut to 40 characters plus "..." when longer. */
  function Title(message: string): (t: string)
    ensures |t| <= TitleLimit + 3
    ensures |message| <= TitleLimit ==> t == message
    ensures |message| > TitleLimit ==> |t| == TitleLimit + 3 && IsPrefix(message[..TitleLimit], t) && IsSuffix("...", t)
  {
    Ellipsize(message, TitleLimit)
  }

  datatype ChatReply =
    | ServerError
    | MessageRequired
    | ConversationNotFound
    | ChatOk(conversationId: int, response: string, status: Status, title: string)
  {
    function Code(): int {
      match this
      case ServerError => 500
      case MessageRequired => 400
      case ConversationNotFound => 404
      case ChatOk(_, _, _, _) => 200
    }

    function ErrorText(): string {
      match this
      case ServerError => "Internal Server Error"
      case MessageRequired => "Message required"
      case ConversationNotFound => "Conversation not found"
      case ChatOk(_, _, _, _) => ""
    }
  }

  /** The owner a new conversation is stored with: none, or a stored user. The
      commit of a conversation naming any other user breaks the foreign key
      and raises, after InnoDB has already used up the next auto-increment id. */
  predicate OwnerKnown(users: seq<User>, userId: Option<int>) {
    userId.None? || UserById(users, userId.value).Some?
  }

  /** The engine's knowledge-base query reads the same table the handlers
      write: when it succeeds it returns the stored items, in some order. */
  predicate SeesKnowledge(env: EngineEnv, store: Store) {
    env.knowledge.Ok? ==> multiset(env.knowledge.value) == multiset(store.knowledge)
  }

  /** Saves the user's message, asks the engine, saves the engine's answer. */
  function Converse(store: Store, engine: Engine, env: EngineEnv, conv: Conversation, text: string, now: int): (out: (ChatReply, Store))
    ensures out.0.ChatOk? && out.0.conversationId == conv.id && out.0.title == conv.title
    ensures out.0.response == GenerateResponse(engine, env, text, Some(conv.id)).text
    ensures out.0.status == GenerateResponse(engine, env, text, Some(conv.id)).status
    ensures out.1 == store.(messages := out.1.messages, nextMessageId := store.nextMessageId + 2)
    ensures |out.1.messages| == |store.messages| + 2
    ensures out.1.messages[..|store.messages|] == store.messages
    ensures out.1.messages[|store.messages|] == Message(store.nextMessageId, conv.id, UserRole, text, now)
    ensures out.1.messages[|store.messages| + 1] == Message(store.nextMessageId + 1, conv.id, AssistantRole, out.0.response, now)
  {
    var userMsg := Message(store.nextMessageId, conv.id, UserRole, text, now);
    var result := GenerateResponse(engine, env, text, Some(conv.id));
    var aiMsg := Message(store.nextMessageId + 1, conv.id, AssistantRole, result.text, now);
    var messages := store.messages + [userMsg, aiMsg];
    assert messages[..|store.messages|] == store.messages;
    (ChatOk(conv.id, result.text, result.status, conv.title),
     store.(messages := messages, nextMessageId := store.nextMessageId + 2))
  }

  /** The conversation a chat with this message and id is answered in, if any. */
  predicate Answerable(store: Store, userId: Option<int>, conversationId: Option<int>) {
    if TruthyId(conversationId) then ConversationById(store.conversations, conversationId.value).Some?
    else OwnerKnown(store.users, userId)
  }

  /** `chat()`: import the engine, validate, find or create the conversation,
      append the user's message and then the assistant's. `engine` is the
      outcome of the import at the top of the handler. `env.messages` is the
      message table as the engine's history query sees it; whether that
      includes the message just added is left open. */
  function Chat(store: Store, engine: Outcome<Engine>, env: EngineEnv,
                userId: Option<int>, message: Option<string>, conversationId: Option<int>, now: int): (out: (ChatReply, Store))
    requires SeesKnowledge(env, store)
    ensures engine.Err? ==> out == (ServerError, store)
    ensures engine.Ok? && !TruthyText(message) ==> out == (MessageRequired, store)
    ensures (engine.Ok? && TruthyText(message) && TruthyId(conversationId)
             && ConversationById(store.conversations, conversationId.value).None?) ==> out == (ConversationNotFound, store)
    ensures (engine.Ok? && TruthyText(message) && !TruthyId(conversationId)
             && !OwnerKnown(store.users, userId)) ==>
      out == (ServerError, store.(nextConversationId := store.nextConversationId + 1))
    ensures out.0.ChatOk? <==> engine.Ok? && TruthyText(message) && Answerable(store, userId, conversationId)
    ensures out.0.Code() == 200 <==> out.0.ChatOk?
    ensures out.0.Code() == 400 <==> engine.Ok? && !TruthyText(message)
    ensures out.0.Code() == 500 <==> engine.Err? || (TruthyText(message) && !TruthyId(conversationId) && !OwnerKnown(store.users, userId))
    ensures out.0.Code() == 400 ==> out.0.ErrorText() == "Message required"
    ensures out.0.Code() == 404 ==> out.0.ErrorText() == "Conversation not found"
    ensures !out.0.ChatOk? ==> out.1 == store.(nextConversationId := out.1.nextConversationId)
    ensures out.0.ChatOk? ==>
      && out.1.nextMessageId == store.nextMessageId + 2
      && out.1.nextKnowledgeId == store.nextKnowledgeId
    ensures out.0.ChatOk? ==>
      var n := |store.messages|;
      && |out.1.messages| == n + 2
      && out.1.messages[..n] == store.messages
      && out.1.messages[n].id == store.nextMessageId && out.1.messages[n + 1].id == store.nextMessageId + 1
      && out.1.messages[n].senderRole == UserRole && out.1.messages[n].content == message.value
      && out.1.messages[n + 1].senderRole == AssistantRole && out.1.messages[n + 1].content == out.0.response
      && out.1.messages[n].conversationId == out.1.messages[n + 1].conversationId == out.0.conversationId
    ensures out.0.ChatOk? ==>
      var result := GenerateResponse(engine.value, env, message.value, Some(out.0.conversationId));
      out.0.response == result.text && out.0.status == result.status
    ensures out.0.ChatOk? && TruthyId(conversationId) ==>
      && out.0.conversationId == conversationId.value && out.1.conversations == store.conversations
      && out.1.nextConversationId == store.nextConversationId
      && out.0.title == ConversationById(store.conversations, conversationId.value).value.title
    ensures out.0.ChatOk? && !TruthyId(conversationId) ==>
      && |out.1.conversations| == |store.conversations| + 1
      && out.1.conversations[..|store.conversations|] == store.conversations
      && var conv := out.1.conversations[|store.conversations|];
         conv.id == out.0.conversationId == store.nextConversationId && conv.userId == userId
         && conv.title == Title(message.value) == out.0.title && conv.status == Active
    ensures out.0.ChatOk? && !TruthyId(conversationId) ==> out.1.nextConversationId == store.nextConversationId + 1
    ensures out.1.users == store.users && out.1.knowledge == store.knowledge
  {
    if engine.Err? then (ServerError, store)
    else if !TruthyText(message) then (MessageRequired, store)
    else if !TruthyId(conversationId) then
      if !OwnerKnown(store.users, userId) then
        (ServerError, store.(nextConversationId := store.nextConversationId + 1))
      else
        var conv := Conversation(store.nextConversationId, userId, Title(message.value), Active, now, now);
        var conversations := store.conversations + [conv];
        assert conversations[..|store.conversations|] == store.conversations;
        var created := store.(conversations := conversations, nextConversationId := store.nextConversationId + 1);
        Converse(created, engine.value, env, conv, message.value, now)
    else
      match ConversationById(store.conversations, conversationId.value)
      case None => (ConversationNotFound, store)
      case Some(conv) => Converse(store, engine.value, env, conv, message.value, now)
  }

  /** Every stored knowledge item reaches the chat's system prompt whenever the
      knowledge-base query succeeds, so an uploaded document is consulted. */
  lemma StoredDocumentInPrompt(store: Store, env: EngineEnv, base: string, item: KnowledgeItem)
    requires SeesKnowledge(env, store) && env.knowledge.Ok?
    requires item in store.knowledge
    ensures Contains(SystemPromptFor(base, env.knowledge), DocumentBlock(item))
  {
    var docs := env.knowledge.value;
    assert item in multiset(store.knowledge);
    assert item in docs;
    var k :| 0 <= k < |docs| && docs[k] == item;
    EveryDocumentInPrompt(base, docs, k);
  }

  /** Appending two messages with the next two ids, both belonging to a stored
      conversation, keeps the store valid. */
  lemma AppendPairPreservesValid(store: Store, a: Message, b: Message)
    requires Valid(store)
    requires a.id == store.nextMessageId && b.id == store.nextMessageId + 1
    requires HasConversation(store.conversations, a.conversationId)
    requires HasConversation(store.conversations, b.conversationId)
    ensures Valid(store.(messages := store.messages + [a, b], nextMessageId := store.nextMessageId + 2))
  {
    var ms := store.messages + [a, b];
    var n := |store.messages|;
    forall i | 0 <= i < |ms|
      ensures HasConversation(store.conversations, ms[i].conversationId)
    {
      if i < n {
        assert ms[i] == store.messages[i];
      }
    }
  }

  lemma ConversePreservesValid(store: Store, engine: Engine, env: EngineEnv, conv: Conversation, text: string, now: int)
    requires Valid(store)
    requires HasConversation(store.conversations, conv.id)
    ensures Valid(Converse(store, engine, env, conv, text, now).1)
  {
    var out := Converse(store, engine, env, conv, text, now);
    var n := |store.messages|;
    AppendPairPreservesValid(store, out.1.messages[n], out.1.messages[n + 1]);
    assert out.1.messages == store.messages + [out.1.messages[n], out.1.messages[n + 1]];
  }

  /** Creating a conversation with the next id and a known owner keeps the store valid. */
  lemma CreatePreservesValid(store: Store, conv: Conversation)
    requires Valid(store)
    requires conv.id == store.nextConversationId
    requires OwnerKnown(store.users, conv.userId)
    ensures Valid(store.(conversations := store.conversations + [conv], nextConversationId := store.nextConversationId + 1))
    ensures HasConversation(store.conversations + [conv], conv.id)
  {
    var cs := store.conversations + [conv];
    forall i | 0 <= i < |store.messages|
      ensures HasConversation(cs, store.messages[i].conversationId)
    {
      assert HasConversation(store.conversations, store.messages[i].conversationId);
      var j :| 0 <= j < |store.conversations| && store.conversations[j].id == store.messages[i].conversationId;
      assert cs[j] == store.conversations[j];
    }
    if conv.userId.Some? {
      var u := UserById(store.users, conv.userId.value).value;
      var j :| FirstMatch(store.users, (x: User) => x.id == conv.userId.value, j) && store.users[j] == u;
      assert HasUser(store.users, conv.userId.value);
    }
    forall i | 0 <= i < |cs| && cs[i].userId.Some?
      ensures HasUser(store.users, cs[i].userId.value)
    {
      if i < |store.conversations| {
        assert cs[i] == store.conversations[i];
      }
    }
    assert cs[|store.conversations|] == conv;
  }

  /** A chat that starts a conversation for a known owner keeps the store valid. */
  lemma ChatCreatingPreservesValid(store: Store, engine: Engine, env: EngineEnv,
                                   userId: Option<int>, message: Option<string>, conversationId: Option<int>, now: int)
    requires Valid(store) && SeesKnowledge(env, store)
    requires TruthyText(message) && !TruthyId(conversationId) && OwnerKnown(store.users, userId)
    ensures Valid(Chat(store, Ok(engine), env, userId, message, conversationId, now).1)
  {
    var conv := Conversation(store.nextConversationId, userId, Title(message.value), Active, now, now);
    var created := store.(conversations := store.conversations + [conv],
                          nextConversationId := store.nextConversationId + 1);
    ChatCreates(store, engine, env, userId, message, conversationId, now);
    CreatePreservesValid(store, conv);
    ConversePreservesValid(created, engine, env, conv, message.value, now);
  }

  /** The creating branch of `chat()` is the conversation step on the store
      holding the new conversation. */
  lemma ChatCreates(store: Store, engine: Engine, env: EngineEnv,
                    userId: Option<int>, message: Option<string>, conversationId: Option<int>, now: int)
    requires SeesKnowledge(env, store)
    requires TruthyText(message) && !TruthyId(conversationId) && OwnerKnown(store.users, userId)
    ensures var conv := Conversation(store.nextConversationId, userId, Title(message.value), Active, now, now);
      Chat(store, Ok(engine), env, userId, message, conversationId, now)
      == Converse(store.(conversations := store.conversations + [conv],
                         nextConversationId := store.nextConversationId + 1),
                  engine, env, conv, message.value, now)
  {
  }

  /** A chat in a stored conversation keeps the store valid. */
  lemma ChatContinuingPreservesValid(store: Store, engine: Engine, env: EngineEnv,
                                     userId: Option<int>, message: Option<string>, conversationId: Option<int>, now: int)
    requires Valid(store) && SeesKnowledge(env, store)
    requires TruthyText(message) && TruthyId(conversationId)
    requires ConversationById(store.conversations, conversationId.value).Some?
    ensures Valid(Chat(store, Ok(engine), env, userId, message, conversationId, now).1)
  {
    var found := ConversationById(store.conversations, conversationId.value).value;
    var j :| FirstMatch(store.conversations, (x: Conversation) => x.id == conversationId.value, j)
             && store.conversations[j] == found;
    ConversePreservesValid(store, engine, env, found, message.value, now);
  }

  /** `chat()` keeps every integrity constraint of the store. */
  lemma ChatPreservesValid(store: Store, engine: Outcome<Engine>, env: EngineEnv,
                           userId: Option<int>, message: Option<string>, conversationId: Option<int>, now: int)
    requires Valid(store) && SeesKnowledge(env, store)
    ensures Valid(Chat(store, engine, env, userId, message, conversationId, now).1)
  {
    if engine.Ok? && TruthyText(message) {
      if !TruthyId(conversationId) {
        if OwnerKnown(store.users, userId) {
          ChatCreatingPreservesValid(store, engine.value, env, userId, message, conversationId, now);
        }
      } else if ConversationById(store.conversations, conversationId.value).Some? {
        ChatContinuingPreservesValid(store, engine.value, env, userId, message, conversationId, now);
      }
    }
  }

  /** A stored conversation is always found and answered under its own id once
      the engine has loaded. Validity makes its id non-zero, hence truthy. */
  lemma KnownConversationIsAnswered(store: Store, engine: Engine, env: EngineEnv,
                                    userId: Option<int>, text: string, id: int, now: int)
    requires Valid(store) && SeesKnowledge(env, store) && text != ""
    requires HasConversation(store.conversations, id)
    ensures Chat(store, Ok(engine), env, userId, Some(text), Some(id), now).0.ChatOk?
    ensures Chat(store, Ok(engine), env, userId, Some(text), Some(id), now).0.conversationId == id
  {
    var j :| 0 <= j < |store.conversations| && store.conversations[j].id == id;
    assert ConversationById(store.conversations, id).Some?;
  }

  // ---------------------------------------------------------------------
  // GET /api/conversations/<user_id> and GET /api/conversations/<id>/messages

  datatype ConversationListing = ConversationListing(id: int, title: string, updatedAt: int)

  function ListingOf(c: Conversation): ConversationListing {
    ConversationListing(c.id, c.title, c.updatedAt)
  }

  function ListingUpdatedAt(l: ConversationListing): int { l.updatedAt }

  function ListingsOf(cs: seq<Conversation>): (r: seq<ConversationListing>)
    ensures |r| == |cs|
    ensures forall i :: 0 <= i < |cs| ==> r[i] == ListingOf(cs[i])
  {
    seq(|cs|, i requires 0 <= i < |cs| => ListingOf(cs[i]))
  }

  predicate OwnedBy(c: Conversation, userId: int) {
    c.userId == Some(userId)
  }

  /** The user's conversations, most recently updated first: a reordering of
      exactly the rows whose `user_id` is the user. */
  function UserConversations(conversations: seq<Conversation>, userId: int): (r: seq<Conversation>)
    ensures Descending(r, ConversationUpdatedAt)
    ensures multiset(r) == multiset(Filter(conversations, (c: Conversation) => OwnedBy(c, userId)))
    ensures multiset(r) <= multiset(conversations)
  {
    SortDescending(Filter(conversations, (c: Conversation) => OwnedBy(c, userId)), ConversationUpdatedAt)
  }

  /** `get_conversations(user_id)`: the listing of each of the user's
      conversations, most recently updated first. */
  function GetConversations(conversations: seq<Conversation>, userId: int): (r: seq<ConversationListing>)
    ensures |r| == |UserConversations(conversations, userId)|
    ensures forall i :: 0 <= i < |r| ==> r[i] == ListingOf(UserConversations(conversations, userId)[i])
    ensures Descending(r, ListingUpdatedAt)
  {
    ListingsOf(UserConversations(conversations, userId))
  }

  /** Only the user's own conversations are listed, each as often as it is stored. */
  lemma UserConversationsSound(conversations: seq<Conversation>, userId: int, i: int)
    requires 0 <= i < |UserConversations(conversations, userId)|
    ensures OwnedBy(UserConversations(conversations, userId)[i], userId)
    ensures UserConversations(conversations, userId)[i] in conversations
  {
    var mine := Filter(conversations, (c: Conversation) => OwnedBy(c, userId));
    var r := UserConversations(conversations, userId);
    MultisetMembers(r, mine, r[i]);
  }

  /** Every conversation of the user is listed. */
  lemma GetConversationsComplete(conversations: seq<Conversation>, userId: int, j: int)
    requires 0 <= j < |conversations| && OwnedBy(conversations[j], userId)
    ensures ListingOf(conversations[j]) in GetConversations(conversations, userId)
  {
    var mine := Filter(conversations, (c: Conversation) => OwnedBy(c, userId));
    var sorted := UserConversations(conversations, userId);
    MultisetMembers(sorted, mine, conversations[j]);
    var k :| 0 <= k < |sorted| && sorted[k] == conversations[j];
    assert GetConversations(conversations, userId)[k] == ListingOf(conversations[j]);
  }

  /** `get_messages(conversation_id)`: the conversation's messages, oldest first. */
  function GetMessages(messages: seq<Message>, conversationId: int): (r: seq<Message>)
    ensures Ascending(r, MessageCreatedAt)
    ensures forall i :: 0 <= i < |r| ==> r[i].conversationId == conversationId && r[i] in messages
    ensures multiset(r) == multiset(Filter(messages, (m: Message) => m.conversationId == conversationId))
  {
    var mine := Filter(messages, (m: Message) => m.conversationId == conversationId);
    var r := SortAscending(mine, MessageCreatedAt);
    assert forall i :: 0 <= i < |r| ==> r[i].conversationId == conversationId && r[i] in messages by {
      forall i | 0 <= i < |r| ensures r[i].conversationId == conversationId && r[i] in messages {
        MultisetMembers(r, mine, r[i]);
      }
    }
    r
  }

  /** Every message of the conversation is listed, and nothing else. */
  lemma GetMessagesComplete(messages: seq<Message>, conversationId: int, m: Message)
    ensures m in GetMessages(messages, conversationId) <==> m in messages && m.conversationId == conversationId
  {
    var mine := Filter(messages, (x: Message) => x.conversationId == conversationId);
    MultisetMembers(GetMessages(messages, conversationId), mine, m);
    if m in messages && m.conversationId == conversationId {
      var k :| 0 <= k < |messages| && messages[k] == m;
    }
  }

  /** The two messages `chat()` appends are listed by `get_messages` for that conversation. */
  lemma ChatMessagesAreListed(store: Store, engine: Engine, env: EngineEnv,
                              userId: Option<int>, message: Option<string>, conversationId: Option<int>, now: int)
    requires SeesKnowledge(env, store) && TruthyText(message)
    requires Answerable(store, userId, conversationId)
    ensures var out := Chat(store, Ok(engine), env, userId, message, conversationId, now);
      var n := |store.messages|;
      out.1.messages[n] in GetMessages(out.1.messages, out.0.conversationId)
      && out.1.messages[n + 1] in GetMessages(out.1.messages, out.0.conversationId)
  {
    var out := Chat(store, Ok(engine), env, userId, message, conversationId, now);
    var n := |store.messages|;
    GetMessagesComplete(out.1.messages, out.0.conversationId, out.1.messages[n]);
    GetMessagesComplete(out.1.messages, out.0.conversationId, out.1.messages[n + 1]);
  }
}

=== FILE: base.dfy ===
/** Small failure-carrying datatypes shared by every module of the model.
    `Option` stands for a Python value that may be `None`; `Outcome` stands
    for a call that either returns a value or raises an exception whose
    `str(e)` is kept as `error`. */
module Base {

  datatype Option<+T> = None | Some(value: T)

  datatype Outcome<+T> = Ok(value: T) | Err(error: string)

  /** Python truthiness of an optional string: `None` and `""` are falsy. */
  predicate TruthyText(v: Option<string>) {
    v.Some? && v.value != ""
  }

  /** Python truthiness of an optional integer id: `None` and `0` are falsy. */
  predicate TruthyId(v: Option<int>) {
    v.Some? && v.value != 0
  }
}

=== FILE: chat_engine.dfy ===
/** services/chat_engine.py: provider selection at import time and the
    `generate_response` pipeline (key guard, knowledge-base prompt, message
    payload, completion, keyword status, failure fallback). The completion
    provider, the knowledge-base query and the message-table query are
    inputs; an input's `Err` carries the text of the exception it raised. */
module ChatEngine {
  import opened Base
  import opened Strings
  import opened Sequences
  import opened Models

  const DeepSeekBaseUrl: string := "https://api.deepseek.com"
  const DeepSeekModel: string := "deepseek-chat"
  const OpenAiModel: string := "gpt-3.5-turbo"
  const Temperature: real := 0.3
  /** Characters of each knowledge-base document copied into the prompt. */
  const DocumentCap: nat := 5000
  /** Past messages fetched for context. */
  const HistoryLimit: nat := 10

  /** The alert glyph: WARNING SIGN followed by VARIATION SELECTOR-16. */
  const AlertGlyph: string := "\U{26A0}\U{FE0F}"

  const SystemPrompt: string :=
    "\n"
    + "Eres 'IuristaTech AI', un asistente legal virtual experto en derecho colombiano.\n"
    + "Tu objetivo es orientar a usuarios (principalmente Pymes y personas naturales) en tres áreas clave:\n"
    + "1. Derecho Laboral y Seguridad Social via Ministerio de Trabajo.\n"
    + "2. Derecho Inmobiliario y Arrendamientos via Ley 820 de 2003.\n"
    + "3. Derecho Migratorio via Cancillería y Migración Colombia.\n"
    + "\n"
    + "Directrices:\n"
    + "- Responde de manera profesional, empática y concisa.\n"
    + "- Cita siempre la normativa aplicable (Leyes, Decretos, Sentencias C-XXX).\n"
    + "- Si detectas riesgos legales graves (demanda inminente, vencimiento de términos), advierte al usuario con un emoji de alerta \U{26A0}\U{FE0F}.\n"
    + "- Si la consulta está fuera de tus 3 áreas de especialidad, infórmalo amablemente y sugiere contactar a un abogado humano.\n"
    + "- No inventes leyes. Si no sabes, di que necesitas verificar la información.\n"
    + "- Estructura tus respuestas con viñetas o negritas para facilitar la lectura.\n"
    + "\n"
    + "4. Redacción de Documentos:\n"
    + "- Si el usuario solicita un contrato, derecho de petición o carta, NO lo generes de inmediato si faltan datos.\n"
    + "- Actúa como un abogado meticuloso: Pregunta los detalles necesarios (Nombres, Cédulas, Fechas, Valores, Cláusulas especiales) antes de redactar.\n"
    + "- Una vez tengas la información, genera el documento completo en formato Markdown, usando bloques de código o formato claro para copiar y pegar.\n"
    + "\n"
    + "Al final de tu respuesta, clasifica internamente el \"estado\" de la consulta en una de estas categorías:\n"
    + "- 'analyzing': Consulta normal informativa o entrevista inicial.\n"
    + "- 'risk': Se detecta un riesgo legal o urgencia.\n"
    + "- 'document': El usuario solicita un documento y tú lo estás entregando o redactando.\n"

  const ConfigErrorText: string :=
    "Error de configuración: No se ha detectado una API Key válida (DeepSeek/OpenAI). Por favor, configure las variables de entorno."

  const QuotaText: string :=
    AlertGlyph + " **Aviso de Sistema**: El servicio de IA está temporalmente saturado (Cuota Excedida). \n\n"
    + "Sin embargo, puedo orientarle con información general: \n"
    + "Para temas laborales, consulte el Código Sustantivo del Trabajo. \n"
    + "Para temas inmobiliarios, la Ley 820 de 2003. \n"
    + "Le sugiero contactar directamente a nuestros abogados humanos."

  const ApologyText: string :=
    "Lo siento, estoy experimentando dificultades técnicas para procesar tu consulta legal en este momento. Por favor, intenta de nuevo más tarde."

  const KnowledgeHeader: string := "\n\n5. BASE DE CONOCIMIENTO (USAR PARA RESPUESTAS):\n"

  const KnowledgeFooter: string :=
    "\n\nInstrucción: Si la consulta del usuario se relaciona con alguno de los documentos anteriores, ÚSALOS como base principal para tu respuesta o redacción."

  // ---------------------------------------------------------------------
  // Provider selection (module top level)

  /** The two environment variables read at import time. */
  datatype Environment = Environment(deepseekKey: Option<string>, openaiKey: Option<string>)

  datatype ProviderConfig = ProviderConfig(apiKey: Option<string>, baseUrl: Option<string>, model: string)

  /** A non-empty DeepSeek key selects DeepSeek; otherwise the OpenAI key and model are used. */
  function SelectProvider(env: Environment): (c: ProviderConfig)
    ensures c.model == DeepSeekModel <==> TruthyText(env.deepseekKey)
    ensures c.model == OpenAiModel <==> !TruthyText(env.deepseekKey)
    ensures c.baseUrl.Some? <==> TruthyText(env.deepseekKey)
    ensures c.baseUrl.Some? ==> c.baseUrl.value == DeepSeekBaseUrl
    ensures TruthyText(env.deepseekKey) ==> c.apiKey == env.deepseekKey
    ensures !TruthyText(env.deepseekKey) ==> c.apiKey == env.openaiKey
  {
    if TruthyText(env.deepseekKey) then ProviderConfig(env.deepseekKey, Some(DeepSeekBaseUrl), DeepSeekModel)
    else ProviderConfig(env.openaiKey, None, OpenAiModel)
  }

  /** The message of the exception the client constructor raises when it is
      given no key and finds none in its own environment lookup. */
  const MissingKeyError: string :=
    "The api_key client option must be set either by passing api_key to the client or by setting the OPENAI_API_KEY environment variable"

  /** The module's globals as fixed at import time: the provider settings and
      the base system prompt. */
  datatype Engine = Engine(config: ProviderConfig, basePrompt: string)

  /** Importing the module: select the provider, build the client, fix the
      base prompt. Building the client raises when the selected key is absent,
      so the import fails exactly then. */
  function LoadModule(env: Environment): (r: Outcome<Engine>)
    ensures r.Err? <==> SelectProvider(env).apiKey.None?
    ensures r.Ok? ==> r.value.config == SelectProvider(env) && r.value.config.apiKey.Some?
  {
    var config := SelectProvider(env);
    if config.apiKey.None? then Err(MissingKeyError)
    else Ok(Engine(config, SystemPrompt))
  }

  /** The import fails exactly when the DeepSeek key is unset or empty and the
      OpenAI key is unset; a loaded engine is refused by the guard only for an
      empty or "placeholder" key. */
  lemma LoadFailsIffNoKey(env: Environment)
    ensures LoadModule(env).Err? <==> !TruthyText(env.deepseekKey) && env.openaiKey.None?
    ensures LoadModule(env).Ok? ==>
      (!KeyUsable(LoadModule(env).value.config.apiKey) <==>
        LoadModule(env).value.config.apiKey.value == ""
        || Contains(LoadModule(env).value.config.apiKey.value, "placeholder"))
  {
  }

  /** The guard at the top of `generate_response`: a key is present, non-empty,
      and has no occurrence of "placeholder" at any position. */
  function KeyUsable(key: Option<string>): (ok: bool)
    ensures ok <==> TruthyText(key) && forall i :: !OccursAt(key.value, "placeholder", i)
  {
    if TruthyText(key) then
      ContainsIffOccurs(key.value, "placeholder");
      !Contains(key.value, "placeholder")
    else false
  }

  /** A set DeepSeek key makes the OpenAI key irrelevant, even when the DeepSeek
      key is a placeholder that the guard will then refuse. */
  lemma DeepSeekShadowsOpenAi(deepseek: Option<string>, openai1: Option<string>, openai2: Option<string>)
    requires TruthyText(deepseek)
    ensures SelectProvider(Environment(deepseek, openai1)) == SelectProvider(Environment(deepseek, openai2))
    ensures Contains(deepseek.value, "placeholder") ==> !KeyUsable(SelectProvider(Environment(deepseek, openai1)).apiKey)
  {
  }

  /** A usable configuration comes from one of the two variables, unaltered. */
  lemma UsableKeyComesFromEnvironment(env: Environment)
    requires KeyUsable(SelectProvider(env).apiKey)
    ensures SelectProvider(env).apiKey == env.deepseekKey || SelectProvider(env).apiKey == env.openaiKey
    ensures TruthyText(env.deepseekKey) || TruthyText(env.openaiKey)
  {
  }

  // ---------------------------------------------------------------------
  // Results and status classification

  datatype Status = Analyzing | Risk | Document {
    function Name(): string {
      match this
      case Analyzing => "analyzing"
      case Risk => "risk"
      case Document => "document"
    }
  }
  /** The three statuses reach the client as three different strings. */
  lemma StatusNamesDistinct(a: Status, b: Status)
    ensures a.Name() == b.Name() <==> a == b
  {
  }


  datatype ChatResult = ChatResult(text: string, status: Status)

  predicate HasRiskMarker(text: string) {
    Contains(text, AlertGlyph) || Contains(Lower(text), "riesgo")
  }

  predicate HasDocumentKeyword(text: string) {
    Contains(Lower(text), "contrato") || Contains(Lower(text), "documento")
  }

  /** Risk keywords are checked first, document keywords second. */
  function Classify(text: string): (s: Status)
    ensures s == Risk <==> HasRiskMarker(text)
    ensures s == Document <==> !HasRiskMarker(text) && HasDocumentKeyword(text)
    ensures s == Analyzing <==> !HasRiskMarker(text) && !HasDocumentKeyword(text)
  {
    if HasRiskMarker(text) then Risk
    else if HasDocumentKeyword(text) then Document
    else Analyzing
  }

  /** The classifier ignores letter case. */
  lemma ClassifyIgnoresCase(text: string)
    ensures Classify(Lower(text)) == Classify(text)
  {
    LowerIdempotent(text);
    ContainsLowerCaseless(text, AlertGlyph);
  }

  /** Text added before or after a reply never lowers its status:
      risk stays risk, and a non-analyzing reply stays non-analyzing. */
  lemma ClassifyMonotone(text: string, more: string)
    ensures Classify(text) == Risk ==> Classify(text + more) == Risk && Classify(more + text) == Risk
    ensures Classify(text) != Analyzing ==> Classify(text + more) != Analyzing && Classify(more + text) != Analyzing
  {
    LowerConcat(text, more);
    LowerConcat(more, text);
    ContainsConcat(text, more, AlertGlyph);
    ContainsConcat(more, text, AlertGlyph);
    ContainsConcat(Lower(text), Lower(more), "riesgo");
    ContainsConcat(Lower(more), Lower(text), "riesgo");
    ContainsConcat(Lower(text), Lower(more), "contrato");
    ContainsConcat(Lower(more), Lower(text), "contrato");
    ContainsConcat(Lower(text), Lower(more), "documento");
    ContainsConcat(Lower(more), Lower(text), "documento");
  }

  /** The degraded result returned when any step after the key guard raises. */
  function Fallback(error: string): (r: ChatResult)
    ensures r.status == Risk <==> Contains(error, "insufficient_quota") || Contains(error, "429")
    ensures r.status == Risk ==> r.text == QuotaText
    ensures r.status != Risk ==> r == ChatResult(ApologyText, Analyzing)
  {
    if Contains(error, "insufficient_quota") || Contains(error, "429") then ChatResult(QuotaText, Risk)
    else ChatResult(ApologyText, Analyzing)
  }

  const ConfigErrorResult: ChatResult := ChatResult(ConfigErrorText, Risk)

  // ---------------------------------------------------------------------
  // System prompt with the knowledge base

  /** One knowledge-base document as it appears in the prompt. The "..." is
      appended whether or not the content was cut. */
  function DocumentBlock(d: KnowledgeItem): (b: string)
    ensures IsPrefix("--- DOCUMENTO REFERENCIA: " + d.title + " ---\n", b)
    ensures IsSuffix("...", b)
    ensures |b| == |d.title| + (if |d.content| <= DocumentCap then |d.content| else DocumentCap) + 34
  {
    var head := "--- DOCUMENTO REFERENCIA: " + d.title + " ---\n";
    var b := head + TakeFirst(d.content, DocumentCap) + "...";
    assert b[..|head|] == head;
    b
  }

  /** What a block says about its document: the title, then the first
      `DocumentCap` characters of the content (all of it when shorter), then "...". */
  lemma DocumentBlockShape(d: KnowledgeItem)
    ensures exists excerpt ::
      && IsPrefix(excerpt, d.content) && |excerpt| <= DocumentCap
      && (|d.content| > DocumentCap ==> |excerpt| == DocumentCap)
      && DocumentBlock(d) == "--- DOCUMENTO REFERENCIA: " + d.title + " ---\n" + excerpt + "..."
    ensures Contains(DocumentBlock(d), d.title)
    ensures IsSuffix("...", DocumentBlock(d))
    ensures |d.content| <= DocumentCap ==> Contains(DocumentBlock(d), d.content + "...")
  {
    var head := "--- DOCUMENTO REFERENCIA: ";
    var tail := " ---\n" + TakeFirst(d.content, DocumentCap) + "...";
    assert IsPrefix(TakeFirst(d.content, DocumentCap), d.content);
    ContainsSelf(d.title);
    ContainsConcat(head, d.title, d.title);
    ContainsConcat(head + d.title, tail, d.title);
    assert DocumentBlock(d) == head + d.title + tail;
    if |d.content| <= DocumentCap {
      var front := head + d.title + " ---\n";
      ContainsSelf(d.content + "...");
      ContainsConcat(front, d.content + "...", d.content + "...");
      assert DocumentBlock(d) == front + (d.content + "...");
    }
  }

  /** Only the title and the first `DocumentCap` characters of a document reach the prompt. */
  lemma DocumentBlockIgnoresTail(d: KnowledgeItem, e: KnowledgeItem)
    requires d.title == e.title
    requires |d.content| > DocumentCap && |e.content| > DocumentCap
    requires d.content[..DocumentCap] == e.content[..DocumentCap]
    ensures DocumentBlock(d) == DocumentBlock(e)
  {
  }

  function DocumentBlocks(docs: seq<KnowledgeItem>): (blocks: seq<string>)
    ensures |blocks| == |docs|
    ensures forall k :: 0 <= k < |docs| ==> blocks[k] == DocumentBlock(docs[k])
  {
    seq(|docs|, k requires 0 <= k < |docs| => DocumentBlock(docs[k]))
  }

  /** The system prompt: the base prompt alone when the knowledge base is empty
      or could not be loaded, else the base prompt followed by the documents. */
  function SystemPromptFor(base: string, kb: Outcome<seq<KnowledgeItem>>): (p: string)
    ensures p == base <==> kb.Err? || |kb.value| == 0
    ensures IsPrefix(base, p)
  {
    match kb
    case Err(_) => base
    case Ok(docs) =>
      if |docs| == 0 then base
      else base + KnowledgeHeader + JoinWith(DocumentBlocks(docs), "\n\n") + KnowledgeFooter
  }

  /** Every loaded document's block appears, whole, in the system prompt. */
  lemma EveryDocumentInPrompt(base: string, docs: seq<KnowledgeItem>, k: int)
    requires 0 <= k < |docs|
    ensures Contains(SystemPromptFor(base, Ok(docs)), DocumentBlock(docs[k]))
  {
    var joined := JoinWith(DocumentBlocks(docs), "\n\n");
    JoinWithContainsParts(DocumentBlocks(docs), "\n\n", k);
    ContainsConcat(base + KnowledgeHeader, joined, DocumentBlock(docs[k]));
    ContainsConcat(base + KnowledgeHeader + joined, KnowledgeFooter, DocumentBlock(docs[k]));
  }

  // ---------------------------------------------------------------------
  // Message payload

  /** One `{"role": ..., "content": ...}` entry sent to the provider. */
  datatype Entry = Entry(role: Role, content: string)

  /** Stored "assistant" stays "assistant"; every other stored role becomes "user". */
  function PayloadRole(stored: Role): (r: Role)
    ensures r != SystemRole
    ensures r == AssistantRole <==> stored == AssistantRole
    ensures r == UserRole <==> stored != AssistantRole
  {
    if stored == AssistantRole then AssistantRole else UserRole
  }

  /** `Message.query.filter_by(conversation_id=id).order_by(created_at.desc()).limit(10)`. */
  function HistoryQuery(messages: seq<Message>, conversationId: int): (h: seq<Message>)
    ensures |h| <= HistoryLimit
    ensures multiset(h) <= multiset(messages)
    ensures forall i :: 0 <= i < |h| ==> h[i].conversationId == conversationId
    ensures Descending(h, MessageCreatedAt)
  {
    var mine := Filter(messages, (m: Message) => m.conversationId == conversationId);
    var newestFirst := SortDescending(mine, MessageCreatedAt);
    TakeFirstDescending(newestFirst, HistoryLimit, MessageCreatedAt);
    var h := TakeFirst(newestFirst, HistoryLimit);
    HistoryRowsOfConversation(h, mine, conversationId);
    h
  }

  /** Rows drawn from the filtered table belong to the conversation. */
  lemma HistoryRowsOfConversation(h: seq<Message>, mine: seq<Message>, conversationId: int)
    requires forall i :: 0 <= i < |mine| ==> mine[i].conversationId == conversationId
    requires multiset(h) <= multiset(mine)
    ensures forall i :: 0 <= i < |h| ==> h[i].conversationId == conversationId
  {
    SubMultisetMembers(h, mine);
  }

  /** The query returns the newest messages of the conversation: a message of the
      conversation it leaves out is no newer than any it returns, and it leaves
      one out only when it already returns `HistoryLimit` of them. */
  lemma HistoryQueryKeepsNewest(messages: seq<Message>, conversationId: int, m: Message, i: int)
    requires m in messages && m.conversationId == conversationId
    requires m !in HistoryQuery(messages, conversationId)
    requires 0 <= i < |HistoryQuery(messages, conversationId)|
    ensures m.createdAt <= HistoryQuery(messages, conversationId)[i].createdAt
    ensures |HistoryQuery(messages, conversationId)| == HistoryLimit
  {
    var mine := Filter(messages, (x: Message) => x.conversationId == conversationId);
    var newestFirst := SortDescending(mine, MessageCreatedAt);
    var k :| 0 <= k < |messages| && messages[k] == m;
    assert m in mine;
    MultisetMembers(newestFirst, mine, m);
    TakeFirstKeepsTop(newestFirst, HistoryLimit, MessageCreatedAt, m, i);
  }

  function ToEntries(ms: seq<Message>): (es: seq<Entry>)
    ensures |es| == |ms|
    ensures forall k :: 0 <= k < |ms| ==> es[k] == Entry(PayloadRole(ms[k].senderRole), ms[k].content)
  {
    seq(|ms|, k requires 0 <= k < |ms| => Entry(PayloadRole(ms[k].senderRole), ms[k].content))
  }

  /** The system entry, the fetched messages turned oldest-first, the current message. */
  function Payload(systemPrompt: string, newestFirst: seq<Message>, message: string): (p: seq<Entry>)
    ensures |p| == |newestFirst| + 2
    ensures p[0] == Entry(SystemRole, systemPrompt)
    ensures p[|p| - 1] == Entry(UserRole, message)
    ensures forall k :: 1 <= k < |p| ==> p[k].role != SystemRole
    ensures forall k :: 0 <= k < |newestFirst| ==>
      p[|newestFirst| - k] == Entry(PayloadRole(newestFirst[k].senderRole), newestFirst[k].content)
  {
    [Entry(SystemRole, systemPrompt)] + ToEntries(Reverse(newestFirst)) + [Entry(UserRole, message)]
  }

  /** The history entries of the payload come from an oldest-first list. */
  lemma PayloadHistoryChronological(systemPrompt: string, newestFirst: seq<Message>, message: string)
    requires Descending(newestFirst, MessageCreatedAt)
    ensures Payload(systemPrompt, newestFirst, message)[1..|newestFirst| + 1] == ToEntries(Reverse(newestFirst))
    ensures Ascending(Reverse(newestFirst), MessageCreatedAt)
  {
    ReverseDescending(newestFirst, MessageCreatedAt);
  }

  // ---------------------------------------------------------------------
  // The pipeline

  /** The arguments of `client.chat.completions.create`. */
  datatype CompletionRequest = CompletionRequest(model: string, baseUrl: Option<string>, messages: seq<Entry>, temperature: real)

  /** What `generate_response` reads besides its arguments: the knowledge-base
      table, the message table as the history query sees it, and the provider. */
  datatype EngineEnv = EngineEnv(
    knowledge: Outcome<seq<KnowledgeItem>>,
    messages: Outcome<seq<Message>>,
    complete: CompletionRequest -> Outcome<string>)

  /** The request sent to the provider, or the error raised by the history query. */
  function RequestFor(engine: Engine, env: EngineEnv, message: string, conversationId: Option<int>): (r: Outcome<CompletionRequest>)
    ensures r.Err? <==> TruthyId(conversationId) && env.messages.Err?
    ensures r.Err? ==> r.error == env.messages.error
    ensures r.Ok? ==> && r.value.model == engine.config.model && r.value.baseUrl == engine.config.baseUrl
                      && r.value.temperature == Temperature
                      && 2 <= |r.value.messages| <= HistoryLimit + 2
                      && r.value.messages[0] == Entry(SystemRole, SystemPromptFor(engine.basePrompt, env.knowledge))
                      && r.value.messages[|r.value.messages| - 1] == Entry(UserRole, message)
    ensures !TruthyId(conversationId) ==> r.Ok? && |r.value.messages| == 2
    ensures r.Ok? ==> r.value.messages == Payload(SystemPromptFor(engine.basePrompt, env.knowledge),
                                                  if TruthyId(conversationId) then HistoryQuery(env.messages.value, conversationId.value) else [],
                                                  message)
  {
    var prompt := SystemPromptFor(engine.basePrompt, env.knowledge);
    if !TruthyId(conversationId) then
      Ok(CompletionRequest(engine.config.model, engine.config.baseUrl, Payload(prompt, [], message), Temperature))
    else
      match env.messages
      case Err(e) => Err(e)
      case Ok(ms) =>
        Ok(CompletionRequest(engine.config.model, engine.config.baseUrl,
                             Payload(prompt, HistoryQuery(ms, conversationId.value), message), Temperature))
  }

  /** The handling of the provider's answer: a reply is returned verbatim with
      its keyword status; a raised error becomes the fallback. */
  function Finish(reply: Outcome<string>): (r: ChatResult)
    ensures reply.Ok? ==> r.text == reply.value && r.status == Classify(reply.value)
    ensures reply.Err? ==> r == Fallback(reply.error)
  {
    match reply
    case Err(e) => Fallback(e)
    case Ok(text) => ChatResult(text, Classify(text))
  }

  /** `generate_response(message, conversation_id)`. */
  function GenerateResponse(engine: Engine, env: EngineEnv, message: string, conversationId: Option<int>): (r: ChatResult)
    ensures !KeyUsable(engine.config.apiKey) ==> r == ConfigErrorResult
    ensures KeyUsable(engine.config.apiKey) && RequestFor(engine, env, message, conversationId).Err? ==>
      r == Fallback(RequestFor(engine, env, message, conversationId).error)
    ensures KeyUsable(engine.config.apiKey) && RequestFor(engine, env, message, conversationId).Ok? ==>
      r == Finish(env.complete(RequestFor(engine, env, message, conversationId).value))
  {
    if !KeyUsable(engine.config.apiKey) then ConfigErrorResult
    else
      match RequestFor(engine, env, message, conversationId)
      case Err(e) => Fallback(e)
      case Ok(request) => Finish(env.complete(request))
  }

  /** With no usable key nothing else is consulted: the knowledge base, the
      history and the provider cannot change the answer. */
  lemma GuardSkipsEverything(engine: Engine, env1: EngineEnv, env2: EngineEnv, message: string, conversationId: Option<int>)
    requires !KeyUsable(engine.config.apiKey)
    ensures GenerateResponse(engine, env1, message, conversationId) == GenerateResponse(engine, env2, message, conversationId)
    ensures GenerateResponse(engine, env1, message, conversationId).status == Risk
  {
  }

  /** Without a conversation id the message table is never read. */
  lemma NoConversationNoHistory(engine: Engine, env: EngineEnv, other: Outcome<seq<Message>>, message: string, conversationId: Option<int>)
    requires !TruthyId(conversationId)
    ensures GenerateResponse(engine, env, message, conversationId)
         == GenerateResponse(engine, env.(messages := other), message, conversationId)
  {
  }

  /** A successful completion is returned verbatim; otherwise the text is one of
      the fixed messages and the status is never "document". */
  lemma ReplyIsVerbatimOrFixed(engine: Engine, env: EngineEnv, message: string, conversationId: Option<int>)
    ensures var r := GenerateResponse(engine, env, message, conversationId);
      var req := RequestFor(engine, env, message, conversationId);
      var answered := KeyUsable(engine.config.apiKey) && req.Ok? && env.complete(req.value).Ok?;
      (answered ==> r.text == env.complete(req.value).value && r.status == Classify(r.text))
      && (!answered ==> (r.text == QuotaText || r.text == ApologyText || r.text == ConfigErrorText) && r.status != Document)
  {
    if KeyUsable(engine.config.apiKey) {
      var req := RequestFor(engine, env, message, conversationId);
      if req.Ok? {
        assert GenerateResponse(engine, env, message, conversationId) == Finish(env.complete(req.value));
      } else {
        assert GenerateResponse(engine, env, message, conversationId) == Fallback(req.error);
      }
    }
  }
}

=== FILE: models.dfy ===
/** The four tables of models.py as immutable records, and the database as
    one `Store` value that the handlers take and return. Timestamps are
    integers (any monotone encoding of the `DateTime` columns). */
module Models {
  import opened Base
  import opened Sequences
  import opened Strings

  /** `db.String(255)`: at most 255 characters. */
  const VarcharCap := 255

  /** `db.Text`, a MySQL `TEXT` column: at most 65,535 bytes of utf8mb4. */
  const TextCap := 65535

  predicate FitsVarchar(s: string) { |s| <= VarcharCap }

  predicate FitsText(s: string) { Utf8Size(s) <= TextCap }

  /** ASCII text fits a `TEXT` column exactly when it has at most 65,535 characters. */
  lemma AsciiFitsTextByLength(s: string)
    requires forall k :: 0 <= k < |s| ==> s[k] as int < 0x80
    ensures FitsText(s) <==> |s| <= TextCap
  {
    Utf8SizeAscii(s);
  }

  /** `messages.sender_role`. */
  datatype Role = UserRole | AssistantRole | SystemRole {
    function Name(): string {
      match this
      case UserRole => "user"
      case AssistantRole => "assistant"
      case SystemRole => "system"
    }
  }

  /** Each role is stored as its own enum value, so reading the column back
      recovers the role. */
  lemma RoleNamesDistinct(a: Role, b: Role)
    ensures a.Name() == b.Name() <==> a == b
  {
  }

  /** `conversations.status`. */
  datatype ConversationStatus = Active | Archived | RiskDetected {
    function Name(): string {
      match this
      case Active => "active"
      case Archived => "archived"
      case RiskDetected => "risk_detected"
    }
  }
  /** Each conversation status is stored as its own enum value. */
  lemma StatusNamesDistinct(a: ConversationStatus, b: ConversationStatus)
    ensures a.Name() == b.Name() <==> a == b
  {
  }


  datatype User = User(id: int, email: string, passwordHash: string, fullName: string, isAdmin: bool)

  datatype Conversation = Conversation(
    id: int, userId: Option<int>, title: string, status: ConversationStatus,
    createdAt: int, updatedAt: int)

  datatype Message = Message(id: int, conversationId: int, senderRole: Role, content: string, createdAt: int)

  datatype KnowledgeItem = KnowledgeItem(id: int, title: string, content: string, fileType: string, createdAt: int)

  /** All rows of the database. The `next…Id` fields are the auto-increment counters. */
  datatype Store = Store(
    users: seq<User>,
    conversations: seq<Conversation>,
    messages: seq<Message>,
    knowledge: seq<KnowledgeItem>,
    nextConversationId: int,
    nextMessageId: int,
    nextKnowledgeId: int)

  function MessageCreatedAt(m: Message): int { m.createdAt }
  function ConversationUpdatedAt(c: Conversation): int { c.updatedAt }
  function KnowledgeCreatedAt(k: KnowledgeItem): int { k.createdAt }

  /** `User.query.get(id)`: lookup by primary key. */
  function UserById(users: seq<User>, id: int): Option<User> {
    FindFirst(users, (u: User) => u.id == id)
  }

  /** `User.query.filter_by(email=email).first()`. */
  function UserByEmail(users: seq<User>, email: string): Option<User> {
    FindFirst(users, (u: User) => u.email == email)
  }

  /** `db.session.get(Conversation, id)`. */
  function ConversationById(conversations: seq<Conversation>, id: int): Option<Conversation> {
    FindFirst(conversations, (c: Conversation) => c.id == id)
  }

  /** `db.session.get(KnowledgeBase, id)`. */
  function KnowledgeById(items: seq<KnowledgeItem>, id: int): Option<KnowledgeItem> {
    FindFirst(items, (k: KnowledgeItem) => k.id == id)
  }

  // ---------------------------------------------------------------------
  // Integrity constraints the schema imposes

  predicate UniqueUsers(users: seq<User>) {
    forall i, j :: 0 <= i < j < |users| ==> users[i].id != users[j].id && users[i].email != users[j].email
  }

  predicate ConversationIdsBelow(cs: seq<Conversation>, next: int) {
    forall i :: 0 <= i < |cs| ==> 1 <= cs[i].id < next
  }

  predicate UniqueConversations(cs: seq<Conversation>) {
    forall i, j :: 0 <= i < j < |cs| ==> cs[i].id != cs[j].id
  }

  predicate MessageIdsBelow(ms: seq<Message>, next: int) {
    forall i :: 0 <= i < |ms| ==> 1 <= ms[i].id < next
  }

  predicate UniqueMessages(ms: seq<Message>) {
    forall i, j :: 0 <= i < j < |ms| ==> ms[i].id != ms[j].id
  }

  predicate KnowledgeIdsBelow(ks: seq<KnowledgeItem>, next: int) {
    forall i :: 0 <= i < |ks| ==> 1 <= ks[i].id < next
  }

  predicate UniqueKnowledge(ks: seq<KnowledgeItem>) {
    forall i, j :: 0 <= i < j < |ks| ==> ks[i].id != ks[j].id
  }

  /** Every stored document fits its `title` and `content` columns. */
  predicate KnowledgeFits(ks: seq<KnowledgeItem>) {
    forall i :: 0 <= i < |ks| ==> FitsVarchar(ks[i].title) && FitsText(ks[i].content)
  }

  predicate HasUser(users: seq<User>, id: int) {
    exists j :: 0 <= j < |users| && users[j].id == id
  }

  /** `conversations.user_id` is a nullable foreign key into `users`. */
  predicate ConversationsReferToUsers(cs: seq<Conversation>, users: seq<User>) {
    forall i :: 0 <= i < |cs| && cs[i].userId.Some? ==> HasUser(users, cs[i].userId.value)
  }

  predicate HasConversation(cs: seq<Conversation>, id: int) {
    exists j :: 0 <= j < |cs| && cs[j].id == id
  }

  /** `messages.conversation_id` is a foreign key into `conversations`. */
  predicate MessagesReferToConversations(ms: seq<Message>, cs: seq<Conversation>) {
    forall i :: 0 <= i < |ms| ==> HasConversation(cs, ms[i].conversationId)
  }

  /** Primary keys are unique and below their auto-increment counters, user
      e-mails are unique, every stored document fits its columns, every
      conversation with an owner names a stored user, and every message
      belongs to a stored conversation. */
  predicate Valid(s: Store) {
    && s.nextConversationId >= 1 && s.nextMessageId >= 1 && s.nextKnowledgeId >= 1
    && UniqueUsers(s.users)
    && UniqueConversations(s.conversations) && ConversationIdsBelow(s.conversations, s.nextConversationId)
    && UniqueMessages(s.messages) && MessageIdsBelow(s.messages, s.nextMessageId)
    && UniqueKnowledge(s.knowledge) && KnowledgeIdsBelow(s.knowledge, s.nextKnowledgeId)
    && KnowledgeFits(s.knowledge)
    && ConversationsReferToUsers(s.conversations, s.users)
    && MessagesReferToConversations(s.messages, s.conversations)
  }
}

=== FILE: schema.dfy ===
/** run_schema.py: split the schema text on ';' and execute, in order, every
    piece that is not blank after stripping. The database connection is an
    input: reading the file or connecting either fails (`Err`) or yields the
    text, and `accepts` says whether `cursor.execute` succeeds on a command. */
module Schema {
  import opened Base
  import opened Strings
  import opened Sequences

  predicate IsCommand(segment: string) { !IsBlank(segment) }

  /** The commands of a schema: its ';'-separated pieces that are not blank,
      in their original order and unstripped, at most one more than there are
      ';' characters. */
  function Commands(schema: string): (commands: seq<string>)
    ensures |commands| <= CountChar(schema, ';') + 1
    ensures forall k :: 0 <= k < |commands| ==> !IsBlank(commands[k])
  {
    Filter(Split(schema, ';'), IsCommand)
  }

  /** Each command is one of the original pieces, unstripped, not blank and
      without ';'; every non-blank piece is a command; and there are at most as
      many commands as ';' characters plus one. */
  lemma CommandsShape(schema: string)
    ensures forall k :: 0 <= k < |Commands(schema)| ==>
      Commands(schema)[k] in Split(schema, ';') && !IsBlank(Commands(schema)[k])
    ensures forall k :: 0 <= k < |Split(schema, ';')| && !IsBlank(Split(schema, ';')[k]) ==>
      Split(schema, ';')[k] in Commands(schema)
    ensures forall k, j :: 0 <= k < |Commands(schema)| && 0 <= j < |Commands(schema)[k]| ==> Commands(schema)[k][j] != ';'
    ensures |Commands(schema)| <= CountChar(schema, ';') + 1
  {
    SplitPartsFree(schema, ';');
    var parts := Split(schema, ';');
    forall k, j | 0 <= k < |Commands(schema)| && 0 <= j < |Commands(schema)[k]|
      ensures Commands(schema)[k][j] != ';'
    {
      var m :| 0 <= m < |parts| && parts[m] == Commands(schema)[k];
    }
  }

  /** The pieces are the schema itself cut at its ';' characters, in order. */
  lemma PiecesRebuildSchema(schema: string)
    ensures JoinWith(Split(schema, ';'), ";") == schema
  {
    SplitJoinRoundTrip(schema, ';');
  }

  /** Whether `cursor.execute` succeeds on a command depends on the command
      and on the database, which the commands already executed have changed:
      `accepts(done, command)` is the outcome of running `command` after the
      commands `done`, in that order, on the database the run started from. */
  type Acceptance = (seq<string>, string) -> bool

  /** Every executed command succeeded on the database its predecessors left. */
  predicate AllAccepted(executed: seq<string>, accepts: Acceptance)
    decreases |executed|
  {
    |executed| == 0 ||
    (var before := executed[..|executed| - 1];
     AllAccepted(before, accepts) && accepts(before, executed[|executed| - 1]))
  }

  /** A run that stopped at a failure: it executed a prefix of the commands,
      every one of them succeeded except the last, which failed. */
  predicate StoppedAtFailure(executed: seq<string>, commands: seq<string>, accepts: Acceptance) {
    && 1 <= |executed| <= |commands|
    && executed == commands[..|executed|]
    && !accepts(executed[..|executed| - 1], executed[|executed| - 1])
    && AllAccepted(executed[..|executed| - 1], accepts)
  }

  /** A run that finished: it executed all the commands and every one succeeded. */
  predicate RanAll(executed: seq<string>, commands: seq<string>, accepts: Acceptance) {
    executed == commands && AllAccepted(executed, accepts)
  }

  /** Accepting one more command extends an accepted run. */
  lemma AcceptedExtend(executed: seq<string>, c: string, accepts: Acceptance)
    requires AllAccepted(executed, accepts) && accepts(executed, c)
    ensures AllAccepted(executed + [c], accepts)
  {
    assert (executed + [c])[..|executed|] == executed;
  }

  /** In an accepted run, command `k` succeeded on the database the first `k` left. */
  lemma {:induction false} AcceptedEach(executed: seq<string>, accepts: Acceptance, k: int)
    requires AllAccepted(executed, accepts) && 0 <= k < |executed|
    ensures accepts(executed[..k], executed[k])
    decreases |executed|
  {
    var before := executed[..|executed| - 1];
    if k < |executed| - 1 {
      AcceptedEach(before, accepts, k);
      assert before[..k] == executed[..k];
    }
  }

  /** A command refused after an accepted run ends the run there. */
  lemma StopsHere(executed: seq<string>, rest: seq<string>, c: string, accepts: Acceptance)
    requires AllAccepted(executed, accepts) && !accepts(executed, c)
    ensures StoppedAtFailure(executed + [c], executed + [c] + rest, accepts)
  {
    var e := executed + [c];
    assert e[..|e| - 1] == executed;
    assert (e + rest)[..|e|] == e;
  }

  /** The loop of `run_schema()` over the pieces: commands are executed one by
      one, each on the database the earlier ones left, and the first failure
      stops the loop. */
  method ExecuteInOrder(pieces: seq<string>, accepts: Acceptance) returns (executed: seq<string>, ok: bool)
    ensures ok ==> RanAll(executed, Filter(pieces, IsCommand), accepts)
    ensures !ok ==> StoppedAtFailure(executed, Filter(pieces, IsCommand), accepts)
  {
    executed := [];
    var i := 0;
    while i < |pieces|
      invariant 0 <= i <= |pieces|
      invariant Filter(pieces, IsCommand) == executed + Filter(pieces[i..], IsCommand)
      invariant AllAccepted(executed, accepts)
    {
      FilterStep(pieces, IsCommand, i);
      var rest := Filter(pieces[i + 1..], IsCommand);
      if IsCommand(pieces[i]) {
        assert Filter(pieces[i..], IsCommand) == [pieces[i]] + rest;
        AppendAssociative(executed, [pieces[i]], rest);
        if !accepts(executed, pieces[i]) {
          StopsHere(executed, rest, pieces[i], accepts);
          return executed + [pieces[i]], false;
        }
        AcceptedExtend(executed, pieces[i], accepts);
        executed := executed + [pieces[i]];
      }
      i := i + 1;
    }
    assert pieces[i..] == [];
    ok := true;
  }

  /** `run_schema()`: nothing runs when the file or the connection fails, and
      `commit()` is called only when every command ran and succeeded. */
  method RunSchema(schema: Outcome<string>, accepts: Acceptance) returns (executed: seq<string>, commitCalled: bool)
    ensures schema.Err? ==> executed == [] && !commitCalled
    ensures commitCalled ==> schema.Ok? && RanAll(executed, Commands(schema.value), accepts)
    ensures schema.Ok? && !commitCalled ==> StoppedAtFailure(executed, Commands(schema.value), accepts)
  {
    match schema
    case Err(_) =>
      executed, commitCalled := [], false;
    case Ok(text) =>
      executed, commitCalled := ExecuteInOrder(Split(text, ';'), accepts);
  }

  /** A command can succeed and then fail when run again: two identical
      inserts into a keyed table, where the second meets the row the first
      wrote. The run executes both and stops at the second. */
  lemma RepeatedCommandCanFail()
    ensures Commands("c;c") == ["c", "c"]
    ensures StoppedAtFailure(["c", "c"], Commands("c;c"), (done: seq<string>, c: string) => c !in done)
  {
    var one := Split("c"[1..], ';');
    assert one == [""];
    assert ['c'] + one[0] == "c";
    assert Split("c", ';') == [['c'] + one[0]] + one[1..] == ["c"];
    assert Split(";c", ';') == [""] + Split(";c"[1..], ';') == ["", "c"];
    var two := Split("c;c"[1..], ';');
    assert two == ["", "c"];
    assert ['c'] + two[0] == "c";
    assert Split("c;c", ';') == [['c'] + two[0]] + two[1..] == ["c", "c"];
    assert IsCommand("c") by { assert !IsSpace('c'); }
  }
}

=== FILE: sequences.dfy ===
/** Sequence operations that stand for the query clauses the handlers use:
    `filter_by` (Filter), `order_by(col.asc())` / `order_by(col.desc())`
    (SortAscending / SortDescending on an integer key) and `limit(n)` (TakeFirst). */
module Sequences {
  import opened Base

  /** `i` is the index of the first element of `s` satisfying `p`. */
  predicate FirstMatch<T>(s: seq<T>, p: T -> bool, i: int) {
    0 <= i < |s| && p(s[i]) && forall j :: 0 <= j < i ==> !p(s[j])
  }

  /** The first element satisfying `p`, as `query.filter_by(...).first()` returns it. */
  function FindFirst<T>(s: seq<T>, p: T -> bool): (r: Option<T>)
    ensures r.None? <==> forall i :: 0 <= i < |s| ==> !p(s[i])
    ensures r.Some? ==> exists i :: FirstMatch(s, p, i) && s[i] == r.value
  {
    if |s| == 0 then None
    else if p(s[0]) then
      assert FirstMatch(s, p, 0);
      Some(s[0])
    else
      var r := FindFirst(s[1..], p);
      assert r.Some? ==> exists i :: FirstMatch(s, p, i) && s[i] == r.value by {
        if r.Some? {
          var i :| FirstMatch(s[1..], p, i) && s[1..][i] == r.value;
          assert FirstMatch(s, p, i + 1);
        }
      }
      r
  }

  predicate Ascending<T>(s: seq<T>, key: T -> int) {
    forall i, j :: 0 <= i < j < |s| ==> key(s[i]) <= key(s[j])
  }

  predicate Descending<T>(s: seq<T>, key: T -> int) {
    forall i, j :: 0 <= i < j < |s| ==> key(s[i]) >= key(s[j])
  }

  /** The elements of `s` satisfying `p`, in their original order. */
  function Filter<T>(s: seq<T>, p: T -> bool): (r: seq<T>)
    ensures |r| <= |s|
    ensures forall i :: 0 <= i < |r| ==> r[i] in s && p(r[i])
    ensures forall i :: 0 <= i < |s| && p(s[i]) ==> s[i] in r
    ensures multiset(r) <= multiset(s)
  {
    if |s| == 0 then []
    else
      assert s == [s[0]] + s[1..];
      if p(s[0]) then [s[0]] + Filter(s[1..], p) else Filter(s[1..], p)
  }

  lemma AppendAssociative<T>(a: seq<T>, b: seq<T>, c: seq<T>)
    ensures a + (b + c) == a + b + c
  {
  }

  /** Filtering a suffix starting at `i` decides `s[i]`, then filters the rest. */
  lemma FilterStep<T>(s: seq<T>, p: T -> bool, i: int)
    requires 0 <= i < |s|
    ensures Filter(s[i..], p) == (if p(s[i]) then [s[i]] else []) + Filter(s[i + 1..], p)
  {
    assert s[i..][1..] == s[i + 1..];
  }

  /** Filtering with a predicate every element satisfies changes nothing. */
  lemma {:induction false} FilterKeepsAll<T>(s: seq<T>, p: T -> bool)
    requires forall i :: 0 <= i < |s| ==> p(s[i])
    ensures Filter(s, p) == s
  {
    if |s| > 0 {
      FilterKeepsAll(s[1..], p);
      assert s == [s[0]] + s[1..];
    }
  }

  /** Python's `s[:n]`, i.e. SQL `LIMIT n` on an ordered result. */
  function TakeFirst<T>(s: seq<T>, n: nat): (r: seq<T>)
    ensures |r| == if |s| <= n then |s| else n
    ensures forall i :: 0 <= i < |r| ==> r[i] == s[i]
    ensures multiset(r) <= multiset(s)
  {
    if |s| <= n then s
    else
      assert s == s[..n] + s[n..];
      s[..n]
  }

  /** Python's `list.reverse()`. */
  function Reverse<T>(s: seq<T>): (r: seq<T>)
    ensures |r| == |s|
    ensures forall i :: 0 <= i < |s| ==> r[i] == s[|s| - 1 - i]
  {
    if |s| == 0 then [] else Reverse(s[1..]) + [s[0]]
  }

  /** Reversing a newest-first list gives an oldest-first list. */
  lemma ReverseDescending<T>(s: seq<T>, key: T -> int)
    requires Descending(s, key)
    ensures Ascending(Reverse(s), key)
  {
  }

  /** Inserts `x` into an ascending list, keeping it ascending. */
  function Insert<T>(x: T, s: seq<T>, key: T -> int): (r: seq<T>)
    requires Ascending(s, key)
    ensures Ascending(r, key)
    ensures multiset(r) == multiset(s) + multiset{x}
    ensures |r| == |s| + 1
    ensures r[0] == x || (|s| > 0 && r[0] == s[0])
  {
    if |s| == 0 then [x]
    else if key(x) <= key(s[0]) then [x] + s
    else
      var tail := Insert(x, s[1..], key);
      assert s == [s[0]] + s[1..];
      assert key(s[0]) <= key(tail[0]);
      [s[0]] + tail
  }

  /** Insertion sort on an integer key. The database does not promise any
      order among rows with equal keys, so neither does this. */
  function SortAscending<T>(s: seq<T>, key: T -> int): (r: seq<T>)
    ensures Ascending(r, key)
    ensures multiset(r) == multiset(s)
    ensures |r| == |s|
  {
    if |s| == 0 then []
    else
      assert s == [s[0]] + s[1..];
      Insert(s[0], SortAscending(s[1..], key), key)
  }

  function Negate<T>(key: T -> int): T -> int {
    x => -key(x)
  }

  function SortDescending<T>(s: seq<T>, key: T -> int): (r: seq<T>)
    ensures Descending(r, key)
    ensures multiset(r) == multiset(s)
    ensures |r| == |s|
  {
    var r := SortAscending(s, Negate(key));
    assert forall i, j :: 0 <= i < j < |r| ==> Negate(key)(r[i]) <= Negate(key)(r[j]);
    r
  }

  /** A prefix of an ordered list is ordered. */
  lemma TakeFirstDescending<T>(s: seq<T>, n: nat, key: T -> int)
    requires Descending(s, key)
    ensures Descending(TakeFirst(s, n), key)
  {
  }

  /** Limiting a newest-first list keeps the newest: nothing left out outranks anything kept. */
  lemma TakeFirstKeepsTop<T>(s: seq<T>, n: nat, key: T -> int, x: T, i: int)
    requires Descending(s, key)
    requires x in s && x !in TakeFirst(s, n)
    requires 0 <= i < |TakeFirst(s, n)|
    ensures key(x) <= key(TakeFirst(s, n)[i])
  {
    var k :| 0 <= k < |s| && s[k] == x;
  }

  /** Every element of a sub-multiset is an element of the larger sequence. */
  lemma SubMultisetMembers<T>(a: seq<T>, b: seq<T>)
    requires multiset(a) <= multiset(b)
    ensures forall i :: 0 <= i < |a| ==> a[i] in b
  {
    forall i | 0 <= i < |a| ensures a[i] in b {
      assert a[i] in multiset(a);
    }
  }

  lemma MultisetMembers<T>(a: seq<T>, b: seq<T>, x: T)
    requires multiset(a) == multiset(b)
    ensures x in a <==> x in b
  {
    assert x in a <==> x in multiset(a);
    assert x in b <==> x in multiset(b);
  }
}

=== FILE: strings.dfy ===
/** String operations the handlers rely on, stated over `seq<char>` where
    `char` is a Unicode scalar value, the same unit Python's `str` indexes by. */
module Strings {
  import opened Sequences

  predicate IsPrefix(p: string, s: string) {
    |p| <= |s| && s[..|p|] == p
  }

  predicate IsSuffix(p: string, s: string) {
    |p| <= |s| && s[|s| - |p|..] == p
  }

  /** Python's `sub in s`. */
  predicate Contains(s: string, sub: string)
    decreases |s|
  {
    IsPrefix(sub, s) || (|s| > 0 && Contains(s[1..], sub))
  }

  /** `sub` occurs in `s` starting at index `i`. */
  predicate OccursAt(s: string, sub: string, i: int) {
    0 <= i && i + |sub| <= |s| && s[i..i + |sub|] == sub
  }

  /** `Contains` agrees with the positional reading "some window of `s` equals `sub`". */
  lemma {:induction false} ContainsIffOccurs(s: string, sub: string)
    ensures Contains(s, sub) <==> exists i :: OccursAt(s, sub, i)
    decreases |s|
  {
    if Contains(s, sub) {
      if IsPrefix(sub, s) {
        assert OccursAt(s, sub, 0);
      } else {
        ContainsIffOccurs(s[1..], sub);
        var j :| OccursAt(s[1..], sub, j);
        assert s[1..][j..j + |sub|] == s[j + 1..j + 1 + |sub|];
        assert OccursAt(s, sub, j + 1);
      }
    }
    if exists i :: OccursAt(s, sub, i) {
      var i :| OccursAt(s, sub, i);
      if i == 0 {
        assert IsPrefix(sub, s);
      } else {
        assert s[1..][i - 1..i - 1 + |sub|] == s[i..i + |sub|];
        assert OccursAt(s[1..], sub, i - 1);
        ContainsIffOccurs(s[1..], sub);
      }
    }
  }

  /** An occurrence inside either half of a concatenation is an occurrence in the whole. */
  lemma ContainsConcat(a: string, b: string, sub: string)
    ensures Contains(a, sub) ==> Contains(a + b, sub)
    ensures Contains(b, sub) ==> Contains(a + b, sub)
  {
    ContainsIffOccurs(a, sub);
    ContainsIffOccurs(b, sub);
    ContainsIffOccurs(a + b, sub);
    if Contains(a, sub) {
      var i :| OccursAt(a, sub, i);
      assert (a + b)[i..i + |sub|] == a[i..i + |sub|];
      assert OccursAt(a + b, sub, i);
    }
    if Contains(b, sub) {
      var i :| OccursAt(b, sub, i);
      assert (a + b)[|a| + i..|a| + i + |sub|] == b[i..i + |sub|];
      assert OccursAt(a + b, sub, |a| + i);
    }
  }

  lemma ContainsSelf(s: string)
    ensures Contains(s, s)
  {
    assert IsPrefix(s, s);
  }

  // ---------------------------------------------------------------------
  // Lower-casing (ASCII letters only)

  predicate IsAsciiUpper(c: char) { 'A' <= c <= 'Z' }

  predicate IsAsciiLetter(c: char) { 'A' <= c <= 'Z' || 'a' <= c <= 'z' }

  function LowerChar(c: char): (d: char)
    ensures IsAsciiUpper(c) ==> 'a' <= d <= 'z' && d as int == c as int + 32
    ensures !IsAsciiUpper(c) ==> d == c
  {
    if IsAsciiUpper(c) then (c as int + 32) as char else c
  }

  /** Python's `s.lower()` restricted to ASCII letters; every other character is kept. */
  function Lower(s: string): (r: string)
    ensures |r| == |s|
    ensures forall i :: 0 <= i < |s| ==> r[i] == LowerChar(s[i])
  {
    seq(|s|, i requires 0 <= i < |s| => LowerChar(s[i]))
  }

  /** Lower-casing twice is lower-casing once. */
  lemma LowerIdempotent(s: string)
    ensures Lower(Lower(s)) == Lower(s)
  {
  }

  lemma LowerConcat(a: string, b: string)
    ensures Lower(a + b) == Lower(a) + Lower(b)
  {
  }

  /** Lower-casing keeps, and does not create, an occurrence of text without ASCII letters. */
  lemma OccursLowerCaseless(s: string, w: string, i: int)
    requires forall k :: 0 <= k < |w| ==> !IsAsciiLetter(w[k])
    ensures OccursAt(Lower(s), w, i) <==> OccursAt(s, w, i)
  {
    if 0 <= i && i + |w| <= |s| {
      if s[i..i + |w|] == w {
        forall k | 0 <= k < |w| ensures Lower(s)[i + k] == w[k] {
          assert s[i + k] == w[k];
        }
        assert Lower(s)[i..i + |w|] == w;
      }
      if Lower(s)[i..i + |w|] == w {
        forall k | 0 <= k < |w| ensures s[i + k] == w[k] {
          assert Lower(s)[i + k] == w[k];
        }
        assert s[i..i + |w|] == w;
      }
    }
  }

  /** Text without ASCII letters is found in `Lower(s)` exactly where it is found in `s`. */
  lemma ContainsLowerCaseless(s: string, w: string)
    requires forall k :: 0 <= k < |w| ==> !IsAsciiLetter(w[k])
    ensures Contains(Lower(s), w) <==> Contains(s, w)
  {
    ContainsIffOccurs(s, w);
    ContainsIffOccurs(Lower(s), w);
    if Contains(Lower(s), w) {
      var i :| OccursAt(Lower(s), w, i);
      OccursLowerCaseless(s, w, i);
    }
    if Contains(s, w) {
      var i :| OccursAt(s, w, i);
      OccursLowerCaseless(s, w, i);
    }
  }

  // ---------------------------------------------------------------------
  // Slicing helpers

  /** `s[:n] + "..." if len(s) > n else s`: the shortening used for titles and previews. */
  function Ellipsize(s: string, n: nat): (r: string)
    ensures |r| <= n + 3
    ensures |s| <= n ==> r == s
    ensures IsPrefix(TakeFirst(s, n), r)
    ensures |s| > n ==> IsSuffix("...", r) && |r| == n + 3
  {
    if |s| > n then s[..n] + "..." else s
  }

  /** Shortening an already shortened text changes nothing. */
  lemma EllipsizeIdempotent(s: string, n: nat)
    ensures Ellipsize(Ellipsize(s, n), n) == Ellipsize(s, n)
  {
    if |s| > n {
      var r := Ellipsize(s, n);
      assert r[..n] == s[..n];
    }
  }

  // ---------------------------------------------------------------------
  // Storage size

  /** Bytes the character takes in UTF-8 (MySQL's utf8mb4). */
  function Utf8Width(c: char): (n: nat)
    ensures 1 <= n <= 4
    ensures n == 1 <==> c as int < 0x80
  {
    if c as int < 0x80 then 1
    else if c as int < 0x800 then 2
    else if c as int < 0x10000 then 3
    else 4
  }

  /** Bytes the text takes in UTF-8: at least one and at most four per character. */
  function Utf8Size(s: string): (n: nat)
    ensures |s| <= n <= 4 * |s|
  {
    if |s| == 0 then 0 else Utf8Width(s[0]) + Utf8Size(s[1..])
  }

  /** The encoding of a concatenation is the two encodings one after the other. */
  lemma {:induction false} Utf8SizeAppend(a: string, b: string)
    ensures Utf8Size(a + b) == Utf8Size(a) + Utf8Size(b)
    decreases |a|
  {
    if |a| > 0 {
      assert (a + b)[1..] == a[1..] + b;
      Utf8SizeAppend(a[1..], b);
    } else {
      assert a + b == b;
    }
  }

  /** Text takes exactly one byte per character iff it is all ASCII. */
  lemma {:induction false} Utf8SizeAscii(s: string)
    ensures Utf8Size(s) == |s| <==> forall k :: 0 <= k < |s| ==> s[k] as int < 0x80
    decreases |s|
  {
    if |s| > 0 {
      Utf8SizeAscii(s[1..]);
      if Utf8Size(s) == |s| {
        forall k | 0 <= k < |s| ensures s[k] as int < 0x80 {
          if k > 0 { assert s[k] == s[1..][k - 1]; }
        }
      }
      if forall k :: 0 <= k < |s| ==> s[k] as int < 0x80 {
        assert forall k :: 0 <= k < |s[1..]| ==> s[1..][k] == s[k + 1];
      }
    }
  }

  // ---------------------------------------------------------------------
  // Joining and splitting

  /** Python's `sep.join(parts)`. */
  function JoinWith(parts: seq<string>, sep: string): string
  {
    if |parts| == 0 then ""
    else if |parts| == 1 then parts[0]
    else parts[0] + sep + JoinWith(parts[1..], sep)
  }

  /** Every part of a join occurs, whole, in the joined text. */
  lemma {:induction false} JoinWithContainsParts(parts: seq<string>, sep: string, k: int)
    requires 0 <= k < |parts|
    ensures Contains(JoinWith(parts, sep), parts[k])
    decreases |parts|
  {
    ContainsSelf(parts[k]);
    if |parts| == 1 {
    } else if k == 0 {
      ContainsConcat(parts[0], sep + JoinWith(parts[1..], sep), parts[0]);
      assert parts[0] + sep + JoinWith(parts[1..], sep) == parts[0] + (sep + JoinWith(parts[1..], sep));
    } else {
      JoinWithContainsParts(parts[1..], sep, k - 1);
      ContainsConcat(parts[0] + sep, JoinWith(parts[1..], sep), parts[k]);
    }
  }

  /** Python's `str.isspace()` on one character: the characters `str.strip()` removes. */
  predicate IsSpace(c: char) {
    ('\t' <= c <= '\r') || ('\U{1C}' <= c <= '\U{1F}') || c == ' '
    || c == '\U{85}' || c == '\U{A0}' || c == '\U{1680}'
    || ('\U{2000}' <= c <= '\U{200A}') || c == '\U{2028}' || c == '\U{2029}'
    || c == '\U{202F}' || c == '\U{205F}' || c == '\U{3000}'
  }

  /** `not s.strip()`: the text is empty or only whitespace. */
  predicate IsBlank(s: string) {
    forall k :: 0 <= k < |s| ==> IsSpace(s[k])
  }

  /** Number of occurrences of the character `c` in `s`. */
  function CountChar(s: string, c: char): nat
  {
    if |s| == 0 then 0 else (if s[0] == c then 1 else 0) + CountChar(s[1..], c)
  }

  /** Python's `s.split(sep)` for a one-character separator. */
  function Split(s: string, sep: char): (parts: seq<string>)
    ensures |parts| == CountChar(s, sep) + 1
    decreases |s|
  {
    if |s| == 0 then [""]
    else
      var rest := Split(s[1..], sep);
      if s[0] == sep then [""] + rest
      else [[s[0]] + rest[0]] + rest[1..]
  }

  /** No part of a split contains the separator. */
  lemma {:induction false} SplitPartsFree(s: string, sep: char)
    ensures forall k, j :: 0 <= k < |Split(s, sep)| && 0 <= j < |Split(s, sep)[k]| ==> Split(s, sep)[k][j] != sep
    decreases |s|
  {
    if |s| > 0 {
      SplitPartsFree(s[1..], sep);
    }
  }

  /** Joining the parts back with the separator gives the original text. */
  lemma {:induction false} SplitJoinRoundTrip(s: string, sep: char)
    ensures JoinWith(Split(s, sep), [sep]) == s
    decreases |s|
  {
    if |s| > 0 {
      var rest := Split(s[1..], sep);
      SplitJoinRoundTrip(s[1..], sep);
      assert s == [s[0]] + s[1..];
      if s[0] == sep {
        assert Split(s, sep)[1..] == rest;
      } else {
        var parts := Split(s, sep);
        assert parts[1..] == rest[1..];
        if |rest| == 1 {
        } else {
          assert JoinWith(rest, [sep]) == rest[0] + [sep] + JoinWith(rest[1..], [sep]);
          assert JoinWith(parts, [sep]) == [s[0]] + rest[0] + [sep] + JoinWith(rest[1..], [sep]);
        }
      }
    }
  }
}
